=== FILE: README.md ===
# OTA upload handler of ota-demo, in Dafny

This project models the firmware-update core of the ota-demo web server
(`main/web_server.c`):

- `upload_post_handler` (`POST /upload`). It opens an OTA write on the next
  update partition and streams the multipart body into it chunk by chunk,
  skipping the multipart headers of the first chunk. Then it closes the
  write, switches the boot pointer, answers and schedules a reboot.
- `settings_reboot_handler` (`GET /reboot`). It schedules the reboot task,
  then answers.
- `httpd_unescape_uri`. It decodes `%HH` escapes and `+` into a bounded
  destination buffer.

## How the model is built

- **wrappers.dfy** (`Wrappers`) holds the `Option` type.
- **uri_unescape.dfy** (`UriUnescape`) holds the decoder.
  - `UnescapeUri` is the C loop as a method over `seq<char>`.
  - `Decode` is the untruncated reference decoding that the method is
    specified against.
  - `PercentEncode` and `FormEncode` are two encoders that the decoder
    inverts.
- **multipart.dfy** (`Multipart`) models the bytes of a request body
  (`byte`, 0 to 255).
  - `HeaderEnd` is the `strstr(buf, "\r\n\r\n")` search on the first chunk.
    It finds the first terminator that starts before the first NUL byte,
    as a C string search would.
  - `Payload` gives the bytes a request hands to the partition: the first
    chunk after its terminator, then every later chunk.
- **ota_log.dfy** (`OtaLog`) defines the calls the handler makes into the
  platform as `Event`s. One request produces a log of them. `Count`,
  `Passed` (bytes given to `esp_ota_write`), `Stored` (bytes of the writes
  that succeeded) and `BootAfter` (the boot pointer after the log) read the
  log. `WritesFollowOrdinals` says that each write in a log succeeded
  exactly when its number in call order is not among the failing ones.
- **upload_handler.dfy** (`UploadHandler`) holds the handlers.
  - `Platform` fixes the outcome of every platform call whose result the
    handler reads: the running and next-update partitions, whether
    `esp_ota_begin`, `esp_ota_end` and `esp_ota_set_boot_partition`
    succeed, and which numbered writes fail. The handlers ignore what
    `httpd_resp_sendstr` and `xTaskCreate` return (lines 384, 388, 500 and
    501), so `Platform` has no field for them. The status cannot depend on
    them, and `SendText` and `SpawnReboot` in the log record that the call
    was made, not that it took effect.
  - A request body is the sequence of results that `httpd_req_recv` returns.
  - `ChunkStep` is one iteration of the `while (received < total_len)` loop.
  - `ReceiveLoop` folds `ChunkStep` over the receive results.
  - `AfterLoop` is the code after the loop.
  - `UploadPostHandler` and `RebootHandler` return a status and the log.
- **upload_properties.dfy** (`UploadProperties`) holds the lemmas about one
  iteration and about the loop.
- **upload_outcomes.dfy** (`UploadOutcomes`) holds the lemmas about whole
  requests.

## Behaviour of the code worth knowing

- The handler has no single-session guard and never answers Busy. Each
  request is modelled on its own.
- The handler sets no receive timeout of its own.
- The handler applies no version policy. Both version checks are compiled
  out (`#if 0`).
- Only the result of the write of the first chunk's data is checked. Every
  other write failure is ignored (`LaterWriteFailuresIgnored`). When the
  first chunk ends exactly at its header terminator, it writes nothing, and
  then no write result is checked at all
  (`HeaderOnlyFirstChunkSucceeds`).
- A failing `esp_ota_end` returns without calling `esp_ota_abort`.
- A missing header terminator is found after `esp_ota_begin` has been
  called, so that path calls `esp_ota_abort` once.
- The success text is sent, and ESP_OK returned, whether or not
  `xTaskCreate` manages to create the reboot task.

The `httpd_unescape_uri` doc comment promises a negative return value on
errors. The code never returns one, so the model does not either: `n` is
always between 0 and `dest_size - 1`.

## Model

| member | source | states |
|---|---|---|
| UriUnescape.UnescapeUri | main/web_server.c:58-75 | Returns `n = min(length of the full decoding, dest_size - 1)`. The first `n` characters written are the first `n` of the full decoding of the C string, and a NUL follows them. |
| UriUnescape.DecodeSuffixEscape | main/web_server.c:62-65 | `%` followed by two hex digits becomes the one octet they spell, and decoding resumes three characters later. |
| UriUnescape.DecodeSuffixOther | main/web_server.c:66-71 | Any other non-NUL character is copied, `+` as a space, including a `%` without two hex digits. Decoding resumes one character later. |
| UriUnescape.HexValue | main/web_server.c:63-64 | One hex digit, read as `strtol` base 16 reads it, is below 16. |
| UriUnescape.OctetChar | main/web_server.c:63-64 | The character of a `%HH` escape is an octet (below 256). |
| UriUnescape.HexDigit | main/web_server.c:62-64 | The digit produced for a value below 16 is a hex digit that reads back as that value, in either case. |
| UriUnescape.EscapeOctet | main/web_server.c:62-64 | `%HH` for an octet starts an escape, and the escape decodes to that octet. |
| UriUnescape.DecodePercentEncode | main/web_server.c:61-72 | Decoding the percent-encoding of any octet string, with upper- or lower-case digits, returns the string. |
| UriUnescape.DecodeFormEncode | main/web_server.c:61-72 | Decoding a form encoding (space as `+`; `%`, `+` and NUL escaped) returns the original string, NULs included. |
| UriUnescape.DecodePlainText | main/web_server.c:69-71 | Text without `%`, `+` or NUL decodes to itself. |
| UriUnescape.DecodeLength | main/web_server.c:61-72 | For a NUL-free source, the decoding is never longer than the source and never shorter than a third of it. |
| Multipart.FindTerminator | main/web_server.c:313-314 | Finds the first `\r\n\r\n` at or after `from` that starts before the first NUL. `None` means every occurrence has a NUL before it. |
| Multipart.HeaderEnd | main/web_server.c:313-319 | Finds the first terminator in the chunk with no NUL before it. `None` exactly when every terminator has a NUL before it. |
| Multipart.HeaderEndIsFirstTerminator | main/web_server.c:313-319 | Conversely, a terminator with no NUL before it and no terminator earlier is exactly the position the search returns. |
| Multipart.HeaderEndAfterHeaders | main/web_server.c:313-319 | For a NUL-free header block without the terminator inside it, followed by the terminator, the search stops right after the headers, whatever follows. |
| UploadProperties.ChunkStepStops | main/web_server.c:304-328 | An iteration stops in three cases, each followed by `esp_ota_abort`. A receive result of 0 or less stops it. A first chunk without a terminator stops it. A failing first write stops it. |
| UploadProperties.ChunkStepContinues | main/web_server.c:304-342 | An iteration that goes on received bytes. It adds them all, header bytes included, to `received`, and logs exactly one receive. |
| UploadProperties.ChunkStepWrites | main/web_server.c:321-339 | An iteration logs at most one `esp_ota_write` call. One that goes on advances the write counter by exactly the writes it logged, and its write succeeds exactly when that write's ordinal is not failing. |
| UploadProperties.ChunkStepPasses | main/web_server.c:311-339 | An iteration that goes on writes what follows the terminator in the first chunk, and every later chunk whole. |
| UploadProperties.LoopDrainedShape | main/web_server.c:303-343 | A loop that completes reached the declared length and only received bytes and wrote. |
| UploadProperties.LoopAbortShape | main/web_server.c:303-343 | A loop that returns early has received and written, then called `esp_ota_abort` once, last, for one of the three reasons. |
| UploadProperties.LoopRecvErrorShape | main/web_server.c:304-309 | When the loop fails on a receive, that receive returned 0 or less, and every receive before it returned bytes. |
| UploadProperties.LoopOtherAbortShape | main/web_server.c:311-328 | When the loop returns early for another reason, every receive returned bytes. |
| UploadProperties.LoopShape | main/web_server.c:303-343 | The four facts above, for any loop exit, as one `WellShaped` predicate. A completed loop reached the declared length. |
| UploadProperties.LoopWriteOrdinals | main/web_server.c:303-343 | The loop's writes are numbered in call order from the session's counter, and each one's result is the platform's answer for its number. |
| UploadProperties.LoopConsumes | main/web_server.c:303-343 | A completed loop consumed the first `m` receive results, `m` being the number of receive calls. Each carried bytes, and `received` grew by all of them. |
| UploadProperties.LoopPayload | main/web_server.c:311-342 | A completed loop handed the partition the first chunk after its terminator, followed by every later chunk, in order. |
| UploadProperties.LoopStoresAll | main/web_server.c:323-339 | With no failing writes, everything handed to the partition is stored. |
| UploadProperties.LoopDrainsExactly | main/web_server.c:303-343 | If no receive returns more than the declared length still missing, a completed loop has exactly the declared length. |
| UploadProperties.ChunkStepIgnoresLaterWrites | main/web_server.c:321-340 | Two platforms that agree on the write of the first chunk's data, when that chunk writes at all, give the same iteration, except for the other write flags. |
| UploadProperties.LoopIgnoresLaterWrites | main/web_server.c:321-340 | The same for the whole loop: same exit, same received count, same calls with the same bytes. A first chunk that ends at its terminator imposes no agreement at all. |
| UploadProperties.LoopDeliversLaterChunks | main/web_server.c:329-343 | Later non-empty chunks that add up to what is still missing are all received and written whole. |
| UploadOutcomes.AfterLoopLog | main/web_server.c:345-390 | After the loop, the log is the begin call, then the loop's receives and writes, then the closing calls of the way the handler returned. A receive failure is reported exactly when the loop stopped on one. |
| UploadOutcomes.DecomposeStatus | main/web_server.c:303-354 | The loop's reason becomes the request's failure. Any status other than an abort means the loop drained exactly the declared length. |
| UploadOutcomes.UploadCallOrder | main/web_server.c:268-390 | Calls follow the source's order: nothing without partitions, only the begin call when it fails, and otherwise begin, then receives and writes, then exactly the closing calls. |
| UploadOutcomes.LogCounts | main/web_server.c:292-390 | Past `esp_ota_begin`, there is one begin call. The closing calls fix the counts of aborts, ends, boot switches and reboots. Bytes written and stored come from the loop alone. |
| UploadOutcomes.BeforeBeginQuiet | main/web_server.c:268-296 | A request that fails before the write is opened makes no receive, abort, end, boot switch or reboot, and moves no bytes. |
| UploadOutcomes.FailedTransferAbortsOnce | main/web_server.c:303-349 | `esp_ota_abort` is called at most once. It is called exactly on the receive, header, first-write and size failures, as the last call, and then nothing is ended, switched or rebooted. |
| UploadOutcomes.ReceiveErrorIsLogged | main/web_server.c:304-309 | A request fails on a receive exactly when some receive returned 0 or less. |
| UploadOutcomes.HeaderMissingAbortsBeforeWriting | main/web_server.c:311-318 | A first chunk without a terminator before its first NUL gives exactly: begin, one receive, abort, failure. |
| UploadOutcomes.FirstChunkWritesAfterTerminator | main/web_server.c:311-328 | The first write is exactly the bytes after the terminator. If that write fails, the request aborts at once. |
| UploadOutcomes.UploadPassesPayload | main/web_server.c:303-354 | When `esp_ota_end` is reached, the consumed results add up to the declared length. The bytes written are the payload of those chunks. |
| UploadOutcomes.SizeMismatchUnreachable | main/web_server.c:303-349 | When no receive exceeds the remaining declared length, the size-mismatch abort cannot happen. |
| UploadOutcomes.OverlongReceiveMismatches | main/web_server.c:311-349 | A first chunk longer than a non-zero declared length, holding the header terminator and with its tail write (if any) succeeding, reaches the size-mismatch abort, which is the last call. |
| UploadOutcomes.BootPointerMovesOnlyOnSuccess | main/web_server.c:351-382 | The boot pointer moves at most once. It ends on the update partition exactly when the request succeeds, and every failure leaves it unchanged. |
| UploadOutcomes.SetBootOnlyAfterEnd | main/web_server.c:292-382 | Every boot switch directly follows a successful `esp_ota_end` and names the partition that `esp_ota_begin` opened. |
| UploadOutcomes.RebootOnlyAfterSuccessResponse | main/web_server.c:378-390 | `xTaskCreate` for the reboot task is called at most once. It is called exactly on success, which is exactly when ESP_OK is returned, and the log ends with the successful boot switch, the success text and that call. |
| UploadOutcomes.RebootRouteSchedulesUnconditionally | main/web_server.c:497-503 | `GET /reboot` always returns ESP_OK, calls `xTaskCreate` for the reboot task first and then sends "Rebooting...". |
| UploadOutcomes.WriteOrdinals | main/web_server.c:321-339 | In a whole request, the `n`-th `esp_ota_write` call, counting from 0, fails exactly when `n` is among the platform's failing writes. |
| UploadOutcomes.LaterWriteFailuresIgnored | main/web_server.c:321-340 | Only the result of the write of the first chunk's data matters, and only when that chunk has bytes after its terminator. The same status, the same calls and the same written bytes result whatever the other writes return. |
| UploadOutcomes.HeaderOnlyFirstChunkSucceeds | main/web_server.c:311-390 | On a platform whose begin, end and boot switch succeed, a first chunk of just `\r\n\r\n` followed by non-empty chunks that make up the declared length gives success whichever writes fail, and the later chunks are passed whole. |
| UploadOutcomes.HeaderOnlyFirstChunkIgnoresWriteZero | main/web_server.c:321-340 | An example: with write 0 failing, 5 declared bytes delivered as `\r\n\r\n` and then one byte succeed; that byte is passed and nothing is stored. |
| UploadOutcomes.FirstChunkOfHeaders | main/web_server.c:311-320 | A first chunk holding the whole header block ends its headers where the block ends. Its tail and the later chunks form the rest of the body. |
| UploadOutcomes.LoopOverWellFormedBody | main/web_server.c:303-343 | Over such a body, the loop drains the declared length and writes exactly the rest of the body. |
| UploadOutcomes.UploadFlashesBodyAfterHeaders | main/web_server.c:253-391 | On a platform whose calls succeed, a well-formed upload succeeds. Exactly the body after the headers is written, and the boot pointer ends on the update partition. |

## Left out

- The `req == NULL` check (line 255) is left out. The model has no pointers.
- Logging, `vTaskDelay` and `esp_ota_get_partition_description` with its
  `#if 0` version checks (lines 261-288 and 356-377) are left out. They
  only log or are compiled out.
- The body of `reboot_task` (`esp_restart_noos`) is left out.
- UploadOutcomes.RebootOnlyAfterSuccessResponse: "reboot scheduled" means
  that `xTaskCreate` was called. Its result is ignored by the code and is
  not modelled, so the model does not promise that a reboot task exists.
  The same holds for `UploadOutcomes.RebootRouteSchedulesUnconditionally`
  and for the texts sent with `httpd_resp_sendstr`.
- The task priority and stack size are left out.
- The settings handlers, HTML pages, 404 redirect, `start_webserver`,
  `settings.c`, `wifi_ap.c` and `main.c` are not part of this model.
- Multipart.HeaderEnd: the C code runs `strstr` on a buffer that is not
  NUL-terminated. When the received bytes contain neither a NUL nor the
  terminator, the C search reads past the received bytes into stale or
  undefined memory. The model confines the search to the received bytes.
- `int` arithmetic is left out. `total_len` and `received` are modelled as
  unbounded naturals. The conversion of `content_len` to `int` and any
  overflow of `received` are not modelled.
- The later-chunk branch for `bytes_read == 0` (lines 330-337) is not
  modelled. It cannot run, because line 305 has already returned on any
  result of 0 or less.
- UriUnescape.UnescapeUri: requires `dest_size >= 1`. With 0, the C
  expression `dest_size - 1` wraps around, so the size limit never stops
  the loop. The loop still stops at the NUL of `src`: it writes the whole
  decoding and then a NUL, whatever the buffer's size. The doc comment
  requires a buffer large enough for the terminator.
- A receive result may carry more than `RecvBufferSize` (1024) bytes. The
  C receive never returns more than its buffer holds, so the model admits
  more inputs than the program sees, and every property above holds for
  them as well. Only `UploadProperties.LoopDrainsExactly` and
  `UploadOutcomes.SizeMismatchUnreachable` use the bound, through their
  `WithinDeclaredLength` hypothesis. When a header block is longer than
  1020 bytes, a first chunk of at most 1024 bytes cannot hold it and its
  terminator. In the model such an upload fails with the header-not-found
  abort (`UploadOutcomes.HeaderMissingAbortsBeforeWriting`). In the C the
  `strstr` search then overreads `buf`, as described under
  `Multipart.HeaderEnd` above, so the C result is undefined.
- Running out of receive results is modelled as the transport reporting a
  closed connection (0).
- UploadOutcomes.SizeMismatchUnreachable: assumes that `httpd_req_recv`
  never returns more than the declared length still missing. The model
  treats that as a property of the transport, not of this code.
- The upload handler sends no error text on any failure path; the only
  error texts it has are inside the `#if 0` blocks. It returns `ESP_FAIL`
  on every failure, and the model's `Failure` is a model-only label for
  which return was taken.

=== FILE: multipart.dfy ===
/**
  The multipart framing the upload handler relies on (main/web_server.c,
  first-chunk branch of `upload_post_handler`). A `multipart/form-data`
  body (RFC 7578) starts with a delimiter line and the body-part headers,
  which end with an empty line (section 5.1.1 of RFC 2046). The handler
  only looks for the first CR LF CR LF in the first received chunk, with
  `strstr`, and treats everything after it as image bytes. It never parses
  the boundary and never strips the closing delimiter.
 */
module Multipart {
  import opened Wrappers

  /** One octet of the request body. */
  newtype byte = x: int | 0 <= x < 256

  /** C's string terminator, where `strstr` stops reading. */
  const Nul: byte := 0

  /** The empty line that ends the body-part headers: CR LF CR LF. */
  const HeaderTerminator: seq<byte> := [13, 10, 13, 10]

  predicate TerminatorAt(s: seq<byte>, i: nat) {
    i + 4 <= |s| && s[i..i + 4] == HeaderTerminator
  }

  predicate NulFree(s: seq<byte>) {
    forall k :: 0 <= k < |s| ==> s[k] != Nul
  }

  /**
    `strstr(buf, "\r\n\r\n")` confined to the bytes of the chunk: the first
    position at or after `from` where the terminator starts, provided no
    NUL byte comes before it.
   */
  function FindTerminator(s: seq<byte>, from: nat): (r: Option<nat>)
    requires from <= |s|
    ensures r.Some? ==> from <= r.value && TerminatorAt(s, r.value) && NulFree(s[from..r.value])
    ensures r.Some? ==> forall j: nat :: from <= j < r.value ==> !TerminatorAt(s, j)
    ensures r.None? ==> forall j: nat :: from <= j && TerminatorAt(s, j) ==> !NulFree(s[from..j])
    decreases |s| - from
  {
    if from + 4 > |s| then None
    else if s[from] == Nul then
      assert forall j: nat :: from < j <= |s| ==> s[from..j][0] == Nul;
      None
    else if s[from..from + 4] == HeaderTerminator then Some(from)
    else
      var r := FindTerminator(s, from + 1);
      assert forall j: nat :: from < j <= |s| ==> s[from..j] == [s[from]] + s[from + 1..j];
      r
  }

  /** Index where the body-part headers end in a first chunk, if `strstr` finds it. */
  function HeaderEnd(chunk: seq<byte>): (r: Option<nat>)
    ensures r.Some? ==> TerminatorAt(chunk, r.value) && NulFree(chunk[..r.value])
    ensures r.Some? ==> forall j: nat :: j < r.value ==> !TerminatorAt(chunk, j)
    ensures r.None? ==> forall j: nat :: TerminatorAt(chunk, j) ==> !NulFree(chunk[..j])
  {
    FindTerminator(chunk, 0)
  }

  /**
    The converse of `HeaderEnd`'s contract: a terminator with no NUL before
    it and no terminator earlier is exactly where the search stops.
   */
  lemma HeaderEndIsFirstTerminator(chunk: seq<byte>, k: nat)
    requires TerminatorAt(chunk, k) && NulFree(chunk[..k])
    requires forall j: nat :: j < k ==> !TerminatorAt(chunk, j)
    ensures HeaderEnd(chunk) == Some(k)
  {
  }

  /** All chunks joined in arrival order. */
  function Flatten(chunks: seq<seq<byte>>): (r: seq<byte>)
    decreases |chunks|
  {
    if chunks == [] then [] else chunks[0] + Flatten(chunks[1..])
  }

  /**
    What the handler hands to the partition for a whole upload: the part of
    the first chunk after the header terminator, then every later chunk
    verbatim (a trailing closing delimiter included).
   */
  function Payload(chunks: seq<seq<byte>>): seq<byte>
  {
    if chunks == [] then []
    else
      var first := match HeaderEnd(chunks[0])
        case Some(k) => chunks[0][k + 4..]
        case None => [];
      first + Flatten(chunks[1..])
  }

  lemma {:induction false} FlattenAppend(a: seq<seq<byte>>, b: seq<seq<byte>>)
    ensures Flatten(a + b) == Flatten(a) + Flatten(b)
    decreases |a|
  {
    if a != [] {
      assert (a + b)[1..] == a[1..] + b;
      FlattenAppend(a[1..], b);
    } else {
      assert a + b == b;
    }
  }

  /**
    A first chunk made of headers, the terminator and data, where the
    headers hold no NUL and the terminator does not start inside them:
    the search stops right after the headers.
   */
  lemma HeaderEndAfterHeaders(headers: seq<byte>, rest: seq<byte>)
    requires NulFree(headers)
    requires forall j: nat :: j < |headers| ==> !TerminatorAt(headers + HeaderTerminator + rest, j)
    ensures HeaderEnd(headers + HeaderTerminator + rest) == Some(|headers|)
  {
    var s := headers + HeaderTerminator + rest;
    assert s[|headers|..|headers| + 4] == HeaderTerminator;
    assert s[..|headers|] == headers;
    match HeaderEnd(s)
    case None =>
      assert TerminatorAt(s, |headers|);
    case Some(k) =>
      if k > |headers| {
        assert TerminatorAt(s, |headers|);
      }
  }
}

=== FILE: ota_log.dfy ===
/**
  The calls that `upload_post_handler` makes into the OTA layer, the
  transport and the task scheduler, recorded as an event log. The log is
  what the properties talk about: which calls happened, in which order,
  which bytes were handed to the partition, whether the boot pointer moved
  and whether a reboot was scheduled.
 */
module OtaLog {
  import opened Multipart

  /** An app partition, as returned by the partition lookups. */
  type PartitionId = nat

  datatype Event =
    | Begin(part: PartitionId, ok: bool)       // esp_ota_begin and whether it returned ESP_OK
    | Recv(result: int)                        // httpd_req_recv and the value it returned
    | Write(data: seq<byte>, ok: bool)         // esp_ota_write with the bytes passed
    | Abort                                    // esp_ota_abort
    | End(ok: bool)                            // esp_ota_end
    | SetBoot(part: PartitionId, ok: bool)     // esp_ota_set_boot_partition
    | SendText(text: string)                   // httpd_resp_sendstr
    | SpawnReboot                              // xTaskCreate(reboot_task, ...)

  datatype Kind = KBegin | KRecv | KWrite | KAbort | KEnd | KSetBoot | KSend | KSpawn

  function KindOf(e: Event): Kind {
    match e
    case Begin(_, _) => KBegin
    case Recv(_) => KRecv
    case Write(_, _) => KWrite
    case Abort => KAbort
    case End(_) => KEnd
    case SetBoot(_, _) => KSetBoot
    case SendText(_) => KSend
    case SpawnReboot => KSpawn
  }

  /** Number of calls of one kind in a log. */
  function Count(log: seq<Event>, k: Kind): nat
    decreases |log|
  {
    if log == [] then 0
    else (if KindOf(log[0]) == k then 1 else 0) + Count(log[1..], k)
  }

  /** The events of the receive loop: receives and partition writes only. */
  predicate TransferOnly(log: seq<Event>) {
    forall i :: 0 <= i < |log| ==> log[i].Recv? || log[i].Write?
  }

  /** Every byte handed to `esp_ota_write`, in call order. */
  function Passed(log: seq<Event>): seq<byte>
    decreases |log|
  {
    if log == [] then []
    else (if log[0].Write? then log[0].data else []) + Passed(log[1..])
  }

  /** The bytes of the writes that the OTA layer accepted, in call order. */
  function Stored(log: seq<Event>): seq<byte>
    decreases |log|
  {
    if log == [] then []
    else (if log[0].Write? && log[0].ok then log[0].data else []) + Stored(log[1..])
  }

  /**
    The write flags follow the platform's failing ordinals: the write at
    position `i` is write number `first` plus the writes before it, and it
    succeeded exactly when that number is not among `failing`.
   */
  predicate WritesFollowOrdinals(log: seq<Event>, failing: set<nat>, first: nat) {
    forall i :: 0 <= i < |log| && log[i].Write? ==> log[i].ok == (first + Count(log[..i], KWrite) !in failing)
  }

  /** The next-boot partition after the logged calls, starting from `boot`. */
  function BootAfter(boot: PartitionId, log: seq<Event>): PartitionId
    decreases |log|
  {
    if log == [] then boot
    else if log[0].SetBoot? && log[0].ok then BootAfter(log[0].part, log[1..])
    else BootAfter(boot, log[1..])
  }

  lemma {:induction false} CountAppend(a: seq<Event>, b: seq<Event>, k: Kind)
    ensures Count(a + b, k) == Count(a, k) + Count(b, k)
    decreases |a|
  {
    if a == [] {
      assert a + b == b;
    } else {
      assert (a + b)[1..] == a[1..] + b;
      CountAppend(a[1..], b, k);
    }
  }

  lemma PassedAppend(a: seq<Event>, b: seq<Event>)
    ensures Passed(a + b) == Passed(a) + Passed(b)
    ensures Stored(a + b) == Stored(a) + Stored(b)
  {
    PassedOnlyAppend(a, b);
    StoredAppend(a, b);
  }

  lemma {:induction false} PassedOnlyAppend(a: seq<Event>, b: seq<Event>)
    ensures Passed(a + b) == Passed(a) + Passed(b)
    decreases |a|
  {
    if a == [] {
      assert a + b == b;
    } else {
      assert (a + b)[1..] == a[1..] + b;
      PassedOnlyAppend(a[1..], b);
    }
  }

  lemma {:induction false} StoredAppend(a: seq<Event>, b: seq<Event>)
    ensures Stored(a + b) == Stored(a) + Stored(b)
    decreases |a|
  {
    if a == [] {
      assert a + b == b;
    } else {
      assert (a + b)[1..] == a[1..] + b;
      StoredAppend(a[1..], b);
    }
  }

  lemma {:induction false} BootAfterAppend(boot: PartitionId, a: seq<Event>, b: seq<Event>)
    ensures BootAfter(boot, a + b) == BootAfter(BootAfter(boot, a), b)
    decreases |a|
  {
    if a == [] {
      assert a + b == b;
    } else {
      assert (a + b)[1..] == a[1..] + b;
      if a[0].SetBoot? && a[0].ok {
        BootAfterAppend(a[0].part, a[1..], b);
      } else {
        BootAfterAppend(boot, a[1..], b);
      }
    }
  }

  /**
    A receive-loop log holds no begin, abort, end, boot switch, response or
    reboot, and leaves the boot pointer where it was.
   */
  lemma {:induction false} TransferOnlyQuiet(log: seq<Event>, boot: PartitionId)
    requires TransferOnly(log)
    ensures Count(log, KBegin) == 0 && Count(log, KAbort) == 0 && Count(log, KEnd) == 0
    ensures Count(log, KSetBoot) == 0 && Count(log, KSend) == 0 && Count(log, KSpawn) == 0
    ensures BootAfter(boot, log) == boot
    decreases |log|
  {
    if log != [] {
      TransferOnlyQuiet(log[1..], boot);
    }
  }

  /** Write ordinals carry on from one log into the next. */
  lemma WritesFollowOrdinalsAppend(a: seq<Event>, b: seq<Event>, failing: set<nat>, first: nat)
    requires WritesFollowOrdinals(a, failing, first)
    requires WritesFollowOrdinals(b, failing, first + Count(a, KWrite))
    ensures WritesFollowOrdinals(a + b, failing, first)
  {
    forall i | 0 <= i < |a + b| && (a + b)[i].Write?
      ensures (a + b)[i].ok == (first + Count((a + b)[..i], KWrite) !in failing)
    {
      if i < |a| {
        assert (a + b)[..i] == a[..i];
      } else {
        OrdinalInSecond(a, b, failing, first, i);
      }
    }
  }

  /** A write in the second of two logs is numbered after all writes of the first. */
  lemma OrdinalInSecond(a: seq<Event>, b: seq<Event>, failing: set<nat>, first: nat, i: nat)
    requires WritesFollowOrdinals(b, failing, first + Count(a, KWrite))
    requires |a| <= i < |a + b| && (a + b)[i].Write?
    ensures (a + b)[i].ok == (first + Count((a + b)[..i], KWrite) !in failing)
  {
    var j := i - |a|;
    assert (a + b)[i] == b[j];
    WritesBeforeInSecond(a, b, i);
  }

  /** The writes before a position in the second of two logs. */
  lemma WritesBeforeInSecond(a: seq<Event>, b: seq<Event>, i: nat)
    requires |a| <= i <= |a + b|
    ensures Count((a + b)[..i], KWrite) == Count(a, KWrite) + Count(b[..i - |a|], KWrite)
  {
    assert (a + b)[..i] == a + b[..i - |a|];
    CountAppend(a, b[..i - |a|], KWrite);
  }
}

=== FILE: upload_handler.dfy ===
/**
  Model of `upload_post_handler` (main/web_server.c): one firmware upload
  over `POST /upload`, folded over the sequence of results that the
  transport's receive call returns. The OTA layer, the partition lookups,
  the transport and task creation are abstract: a `Platform` value fixes
  what each of their calls returns, and the outcome carries the log of the
  calls made.

  Also `settings_reboot_handler`, the `GET /reboot` route, which schedules
  the same reboot task.
 */
module UploadHandler {
  import opened Wrappers
  import opened Multipart
  import opened OtaLog

  /** `esp_err_t` values that the handlers return. */
  const EspOk: int := 0
  const EspFail: int := -1

  /**
    Size of the handler's receive buffer, the most one C receive returns.
    `RecvResult` does not enforce it; `WithinDeclaredLength` states it.
   */
  const RecvBufferSize: nat := 1024

  const SuccessText: string := "Upload successful! Rebooting..."
  const RebootText: string := "Rebooting..."

  type NonPositive = x: int | x <= 0

  /** What one `httpd_req_recv` call returns: some bytes, or an error code. */
  datatype RecvResult = Received(data: seq<byte>) | SocketError(code: NonPositive)

  /** The `int` that the receive call returns. */
  function BytesRead(r: RecvResult): int {
    match r
    case Received(d) => |d|
    case SocketError(c) => c
  }

  /** The bytes a receive result carries (none for an error). */
  function ChunkData(r: RecvResult): seq<byte> {
    if r.Received? then r.data else []
  }

  function Chunks(rs: seq<RecvResult>): (cs: seq<seq<byte>>)
    ensures |cs| == |rs|
    ensures forall i :: 0 <= i < |rs| ==> cs[i] == ChunkData(rs[i])
  {
    seq(|rs|, i requires 0 <= i < |rs| => ChunkData(rs[i]))
  }

  /**
    What the platform answers: the running and next-update partitions (None
    for NULL), the results of `esp_ota_begin`, `esp_ota_end` and
    `esp_ota_set_boot_partition`, and the ordinals (0 for the first call)
    of the `esp_ota_write` calls that fail.
   */
  datatype Platform = Platform(
    running: Option<PartitionId>,
    nextUpdate: Option<PartitionId>,
    beginOk: bool,
    failingWrites: set<nat>,
    endOk: bool,
    setBootOk: bool)

  /** Why the handler returned ESP_FAIL, one value per early return. */
  datatype Failure =
    | NoPartition        // running or update partition is NULL
    | BeginFailed        // esp_ota_begin failed
    | ReceiveFailed      // a receive returned 0 or less
    | HeaderNotFound     // no header terminator in the first chunk
    | FirstWriteFailed   // the write of the first chunk's data failed
    | SizeMismatch       // received != content_len after the loop
    | EndFailed          // esp_ota_end failed
    | SetBootFailed      // esp_ota_set_boot_partition failed

  datatype Status = Success | Fail(why: Failure)

  datatype Outcome = Outcome(status: Status, log: seq<Event>)

  /** The `esp_err_t` the handler returns for a status. */
  function EspResult(s: Status): int {
    if s.Success? then EspOk else EspFail
  }

  /** The loop variables: `received`, `first_chunk`, and how many writes were issued. */
  datatype Session = Session(received: nat, firstChunk: bool, writes: nat)

  /** One loop iteration: carry on with a new session, or return ESP_FAIL. */
  datatype Step = Continue(next: Session, events: seq<Event>) | Stop(why: Failure, events: seq<Event>)

  /** How the receive loop ends: its condition turned false, or an early return. */
  datatype LoopExit = Drained(received: nat, events: seq<Event>) | Aborted(why: Failure, events: seq<Event>)

  /** The body of the receive loop for one receive result. */
  function ChunkStep(failingWrites: set<nat>, s: Session, r: RecvResult): Step
  {
    match r
    case SocketError(code) => Stop(ReceiveFailed, [Recv(code), Abort])
    case Received(d) =>
      if |d| == 0 then Stop(ReceiveFailed, [Recv(0), Abort])
      else if s.firstChunk then
        match HeaderEnd(d)
        case None => Stop(HeaderNotFound, [Recv(|d|), Abort])
        case Some(k) =>
          var image := d[k + 4..];
          if |image| == 0 then
            Continue(Session(s.received + |d|, false, s.writes), [Recv(|d|)])
          else if s.writes in failingWrites then
            Stop(FirstWriteFailed, [Recv(|d|), Write(image, false), Abort])
          else
            Continue(Session(s.received + |d|, false, s.writes + 1), [Recv(|d|), Write(image, true)])
      else
        // later chunks: written verbatim, the write's result is not looked at
        Continue(Session(s.received + |d|, false, s.writes + 1), [Recv(|d|), Write(d, s.writes !in failingWrites)])
  }

  function Prepend(events: seq<Event>, x: LoopExit): LoopExit {
    match x
    case Drained(n, ev) => Drained(n, events + ev)
    case Aborted(why, ev) => Aborted(why, events + ev)
  }

  /**
    `while (received < total_len)`, folded over the receive results. Once
    the results run out, the transport reports the connection closed (0).
   */
  function ReceiveLoop(failingWrites: set<nat>, total: nat, rs: seq<RecvResult>, s: Session): LoopExit
    decreases |rs|
  {
    if s.received >= total then Drained(s.received, [])
    else if rs == [] then Aborted(ReceiveFailed, [Recv(0), Abort])
    else
      match ChunkStep(failingWrites, s, rs[0])
      case Stop(why, ev) => Aborted(why, ev)
      case Continue(next, ev) => Prepend(ev, ReceiveLoop(failingWrites, total, rs[1..], next))
  }

  /**
    The rest of `upload_post_handler` once the receive loop has ended, the
    OTA write on `update` having been opened.
   */
  function AfterLoop(p: Platform, update: PartitionId, contentLen: nat, x: LoopExit): Outcome {
    var begun := [Begin(update, true)];
    match x
    case Aborted(why, ev) => Outcome(Fail(why), begun + ev)
    case Drained(received, ev) =>
      if received != contentLen then
        Outcome(Fail(SizeMismatch), begun + ev + [Abort])
      else if !p.endOk then
        Outcome(Fail(EndFailed), begun + ev + [End(false)])
      else if !p.setBootOk then
        Outcome(Fail(SetBootFailed), begun + ev + [End(true), SetBoot(update, false)])
      else
        Outcome(Success, begun + ev + [End(true), SetBoot(update, true), SendText(SuccessText), SpawnReboot])
  }

  /** `upload_post_handler` for a request declaring `contentLen` body bytes. */
  function UploadPostHandler(p: Platform, contentLen: nat, rs: seq<RecvResult>): Outcome
  {
    if p.running.None? || p.nextUpdate.None? then Outcome(Fail(NoPartition), [])
    else
      var update := p.nextUpdate.value;
      if !p.beginOk then Outcome(Fail(BeginFailed), [Begin(update, false)])
      else AfterLoop(p, update, contentLen, ReceiveLoop(p.failingWrites, contentLen, rs, Session(0, true, 0)))
  }

  /** `settings_reboot_handler`: creates the reboot task, then answers. */
  function RebootHandler(): Outcome {
    Outcome(Success, [SpawnReboot, SendText(RebootText)])
  }
}

=== FILE: upload_outcomes.dfy ===
/**
  Properties of whole `POST /upload` requests and of `GET /reboot`, stated
  over the outcome of the handler model: which OTA calls happen and in what
  order, what reaches the partition, the boot pointer and the reboot.
 */
module UploadOutcomes {
  import opened Wrappers
  import opened Multipart
  import opened OtaLog
  import opened UploadHandler
  import opened UploadProperties

  /** The early returns that call `esp_ota_abort` first. */
  predicate AbortsTransfer(st: Status) {
    st == Fail(ReceiveFailed) || st == Fail(HeaderNotFound) ||
    st == Fail(FirstWriteFailed) || st == Fail(SizeMismatch)
  }

  /** The early returns taken before `esp_ota_begin` succeeded. */
  predicate BeforeBegin(st: Status) {
    st == Fail(NoPartition) || st == Fail(BeginFailed)
  }

  function InitialLoop(p: Platform, contentLen: nat, rs: seq<RecvResult>): LoopExit {
    ReceiveLoop(p.failingWrites, contentLen, rs, Session(0, true, 0))
  }

  /** The receive loop's calls, without the abort of an early return. */
  function Transfer(x: LoopExit): seq<Event> {
    match x
    case Drained(_, ev) => ev
    case Aborted(_, ev) => if |ev| == 0 then [] else ev[..|ev| - 1]
  }

  /* ---------------------------------------------------------------------- */
  /* Helpers                                                                 */
  /* ---------------------------------------------------------------------- */

  lemma EraseFixesWriteFree(log: seq<Event>)
    requires forall i :: 0 <= i < |log| ==> !log[i].Write?
    ensures Erase(log) == log
  {
  }

  /** What the log queries give for a log of one call. */
  lemma SingleCall(e: Event, boot: PartitionId)
    ensures forall k :: Count([e], k) == (if KindOf(e) == k then 1 else 0)
    ensures Passed([e]) == (if e.Write? then e.data else [])
    ensures BootAfter(boot, [e]) == (if e.SetBoot? && e.ok then e.part else boot)
  {
    assert [e][1..] == [];
  }

  /** One log after another: counts and bytes add up, the boot pointer moves through both. */
  lemma Concat(a: seq<Event>, b: seq<Event>, boot: PartitionId)
    ensures forall k :: Count(a + b, k) == Count(a, k) + Count(b, k)
    ensures Passed(a + b) == Passed(a) + Passed(b)
    ensures BootAfter(boot, a + b) == BootAfter(BootAfter(boot, a), b)
  {
    forall k {
      CountAppend(a, b, k);
    }
    PassedAppend(a, b);
    BootAfterAppend(boot, a, b);
  }

  /** The calls of each kind among the closing calls of a successful request. */
  lemma SuccessClosingCounts(u: PartitionId)
    ensures var c := [End(true), SetBoot(u, true), SendText(SuccessText), SpawnReboot];
      && Count(c, KBegin) == 0 && Count(c, KRecv) == 0 && Count(c, KAbort) == 0
      && Count(c, KEnd) == 1 && Count(c, KSetBoot) == 1 && Count(c, KSpawn) == 1
  {
    var e1, e2, e3, e4 := End(true), SetBoot(u, true), SendText(SuccessText), SpawnReboot;
    assert [e1, e2, e3, e4] == [e1] + [e2] + [e3] + [e4];
    SingleCall(e1, 0);
    SingleCall(e2, 0);
    SingleCall(e3, 0);
    SingleCall(e4, 0);
    Concat([e1], [e2], 0);
    Concat([e1] + [e2], [e3], 0);
    Concat([e1] + [e2] + [e3], [e4], 0);
  }

  /** The closing calls of a successful request. */
  lemma SuccessClosingFacts(u: PartitionId, boot: PartitionId)
    ensures var c := [End(true), SetBoot(u, true), SendText(SuccessText), SpawnReboot];
      && Count(c, KBegin) == 0 && Count(c, KRecv) == 0 && Count(c, KAbort) == 0
      && Count(c, KEnd) == 1 && Count(c, KSetBoot) == 1 && Count(c, KSpawn) == 1
      && Passed(c) == [] && PositiveRecvs(c) && Erase(c) == c
      && BootAfter(boot, c) == u
  {
    var e1, e2, e3, e4 := End(true), SetBoot(u, true), SendText(SuccessText), SpawnReboot;
    var c := [e1, e2, e3, e4];
    SuccessClosingCounts(u);
    assert c == [e1, e2] + [e3, e4];
    BootAfterAppend(boot, [e1, e2], [e3, e4]);
    assert [e1, e2][1..] == [e2] && [e3, e4][1..] == [e4];
    SingleCall(e2, boot);
    SingleCall(e4, u);
    EraseFixesWriteFree(c);
    WriteFreeStoresNothing(c);
  }

  /** The closing calls when the boot switch fails. */
  lemma SetBootFailedClosingFacts(u: PartitionId, boot: PartitionId)
    ensures var c := [End(true), SetBoot(u, false)];
      && Count(c, KBegin) == 0 && Count(c, KRecv) == 0 && Count(c, KSpawn) == 0
      && Count(c, KAbort) == 0 && Count(c, KEnd) == 1 && Count(c, KSetBoot) == 1
      && Passed(c) == [] && PositiveRecvs(c) && Erase(c) == c
      && BootAfter(boot, c) == boot
  {
    var e1, e2 := End(true), SetBoot(u, false);
    var c := [e1, e2];
    assert c == [e1] + [e2];
    SingleCall(e1, boot);
    SingleCall(e2, boot);
    Concat([e1], [e2], boot);
    EraseFixesWriteFree(c);
  }

  /** The closing call of the returns that abort or whose `esp_ota_end` fails. */
  lemma SingleClosingFacts(e: Event, boot: PartitionId)
    requires e == Abort || e == End(false)
    ensures
      && Count([e], KBegin) == 0 && Count([e], KRecv) == 0 && Count([e], KSpawn) == 0
      && Count([e], KAbort) == (if e == Abort then 1 else 0)
      && Count([e], KEnd) == (if e == Abort then 0 else 1)
      && Count([e], KSetBoot) == 0
      && Passed([e]) == [] && PositiveRecvs([e]) && Erase([e]) == [e]
      && BootAfter(boot, [e]) == boot
  {
    SingleCall(e, boot);
    EraseFixesWriteFree([e]);
  }

  /** The closing calls of the other returns after `esp_ota_begin` succeeded. */
  lemma FailureClosingFacts(st: Status, u: PartitionId, boot: PartitionId)
    requires !BeforeBegin(st) && st != Success
    ensures var c := Closing(st, u);
      && Count(c, KBegin) == 0 && Count(c, KRecv) == 0 && Count(c, KSpawn) == 0
      && Count(c, KAbort) == (if AbortsTransfer(st) then 1 else 0)
      && Count(c, KEnd) == (if AbortsTransfer(st) then 0 else 1)
      && Count(c, KSetBoot) == (if st == Fail(SetBootFailed) then 1 else 0)
      && Passed(c) == [] && PositiveRecvs(c) && Erase(c) == c
      && BootAfter(boot, c) == boot
  {
    if st == Fail(SetBootFailed) {
      SetBootFailedClosingFacts(u, boot);
    } else if AbortsTransfer(st) {
      SingleClosingFacts(Abort, boot);
    } else {
      SingleClosingFacts(End(false), boot);
    }
  }

  /** The calls after the loop: counts, bytes written and the boot pointer. */
  lemma ClosingFacts(st: Status, u: PartitionId, boot: PartitionId)
    requires !BeforeBegin(st)
    ensures var c := Closing(st, u);
      && Count(c, KBegin) == 0 && Count(c, KRecv) == 0 && Passed(c) == []
      && PositiveRecvs(c) && Erase(c) == c
      && Count(c, KAbort) == (if AbortsTransfer(st) then 1 else 0)
      && Count(c, KEnd) == (if AbortsTransfer(st) then 0 else 1)
      && Count(c, KSetBoot) == (if st == Success || st == Fail(SetBootFailed) then 1 else 0)
      && Count(c, KSpawn) == (if st == Success then 1 else 0)
      && BootAfter(boot, c) == (if st == Success then u else boot)
  {
    if st == Success {
      SuccessClosingFacts(u, boot);
    } else {
      FailureClosingFacts(st, u, boot);
    }
  }

  /** The log of a request that got past `esp_ota_begin`: the begin call, the loop's calls, the closing calls. */
  function Opened(u: PartitionId, mid: seq<Event>, st: Status): seq<Event> {
    [Begin(u, true)] + mid + Closing(st, u)
  }

  lemma BeginFacts(u: PartitionId, boot: PartitionId)
    ensures forall k :: Count([Begin(u, true)], k) == (if k == KBegin then 1 else 0)
    ensures Passed([Begin(u, true)]) == [] && Stored([Begin(u, true)]) == []
    ensures BootAfter(boot, [Begin(u, true)]) == boot
  {
    SingleCall(Begin(u, true), boot);
    WriteFreeStoresNothing([Begin(u, true)]);
  }

  /** Calls of one kind in such a log: the begin call, the loop's receives and writes, the closing calls. */
  lemma OpenedCount(u: PartitionId, mid: seq<Event>, st: Status, k: Kind)
    requires TransferOnly(mid)
    ensures Count(Opened(u, mid, st), k) ==
      (if k == KBegin then 1 else 0) + (if k == KRecv || k == KWrite then Count(mid, k) else 0)
      + Count(Closing(st, u), k)
  {
    CountAppend([Begin(u, true)] + mid, Closing(st, u), k);
    CountAppend([Begin(u, true)], mid, k);
    TransferOnlyQuiet(mid, 0);
    BeginFacts(u, 0);
  }

  /** Only the loop's writes carry bytes in such a log. */
  lemma OpenedBytes(u: PartitionId, mid: seq<Event>, st: Status)
    ensures Passed(Opened(u, mid, st)) == Passed(mid)
    ensures Stored(Opened(u, mid, st)) == Stored(mid)
  {
    var c := Closing(st, u);
    PassedAppend([Begin(u, true)] + mid, c);
    PassedAppend([Begin(u, true)], mid);
    BeginFacts(u, 0);
    WriteFreeStoresNothing(c);
  }

  /** Only the closing calls move the boot pointer in such a log. */
  lemma OpenedBoot(u: PartitionId, mid: seq<Event>, st: Status, boot: PartitionId)
    requires TransferOnly(mid)
    ensures BootAfter(boot, Opened(u, mid, st)) == BootAfter(boot, Closing(st, u))
  {
    BootAfterAppend(boot, [Begin(u, true)] + mid, Closing(st, u));
    BootAfterAppend(boot, [Begin(u, true)], mid);
    BeginFacts(u, boot);
    TransferOnlyQuiet(mid, boot);
  }

  lemma InitialLoopWellShaped(p: Platform, contentLen: nat, rs: seq<RecvResult>)
    ensures WellShaped(InitialLoop(p, contentLen, rs))
    ensures InitialLoop(p, contentLen, rs).Drained? ==> InitialLoop(p, contentLen, rs).received >= contentLen
  {
    LoopShape(p.failingWrites, contentLen, rs, Session(0, true, 0));
  }

  /** After a well-shaped loop the log is the begin call, the loop's calls, the closing calls. */
  lemma AfterLoopLog(p: Platform, u: PartitionId, contentLen: nat, x: LoopExit)
    requires WellShaped(x)
    ensures var o := AfterLoop(p, u, contentLen, x);
      && !BeforeBegin(o.status)
      && o.log == Opened(u, Transfer(x), o.status) && TransferOnly(Transfer(x))
      && (x.Aborted? ==> o.status == Fail(x.why))
      && (o.status == Fail(ReceiveFailed) <==> x.Aborted? && x.why == ReceiveFailed)
      && (x.Drained? ==> Transfer(x) == x.events)
      && (!AbortsTransfer(o.status) ==> x.Drained? && x.received == contentLen)
  {
    if x.Aborted? {
      assert x.events == Transfer(x) + [Abort];
    }
  }

  /** What the receives in the log returned, after a well-shaped loop. */
  lemma AfterLoopRecvs(p: Platform, u: PartitionId, contentLen: nat, x: LoopExit)
    requires WellShaped(x)
    ensures var o := AfterLoop(p, u, contentLen, x);
      var mid := Transfer(x);
      && (o.status == Fail(ReceiveFailed) ==>
            |mid| >= 1 && mid[|mid| - 1].Recv? && mid[|mid| - 1].result <= 0)
      && (o.status != Fail(ReceiveFailed) ==> PositiveRecvs(mid))
  {
    if x.Aborted? {
      var ev := x.events;
      assert ev[..|ev| - 1][..|ev| - 2] == ev[..|ev| - 2];
      if x.why != ReceiveFailed {
        assert forall i :: 0 <= i < |ev| - 1 ==> ev[..|ev| - 1][i] == ev[i];
      }
    }
  }

  /**
    The handler's log, for every return after `esp_ota_begin` succeeded:
    the begin call, the loop's receives and writes, then the closing calls.
   */
  lemma DecomposeLog(p: Platform, contentLen: nat, rs: seq<RecvResult>)
    requires !BeforeBegin(UploadPostHandler(p, contentLen, rs).status)
    ensures p.nextUpdate.Some? && p.running.Some? && p.beginOk
    ensures var o := UploadPostHandler(p, contentLen, rs);
      var mid := Transfer(InitialLoop(p, contentLen, rs));
      o.log == Opened(p.nextUpdate.value, mid, o.status) && TransferOnly(mid)
  {
    InitialLoopWellShaped(p, contentLen, rs);
    if p.running.Some? && p.nextUpdate.Some? && p.beginOk {
      AfterLoopLog(p, p.nextUpdate.value, contentLen, InitialLoop(p, contentLen, rs));
    }
  }

  /** How the loop's exit decides the status. */
  lemma DecomposeStatus(p: Platform, contentLen: nat, rs: seq<RecvResult>)
    requires !BeforeBegin(UploadPostHandler(p, contentLen, rs).status)
    ensures var o := UploadPostHandler(p, contentLen, rs);
      var x := InitialLoop(p, contentLen, rs);
      && (x.Aborted? ==> o.status == Fail(x.why))
      && (o.status == Fail(ReceiveFailed) <==> x.Aborted? && x.why == ReceiveFailed)
      && (x.Drained? ==> x.received >= contentLen && Transfer(x) == x.events)
      && (!AbortsTransfer(o.status) ==> x.Drained? && x.received == contentLen)
  {
    InitialLoopWellShaped(p, contentLen, rs);
    if p.running.Some? && p.nextUpdate.Some? && p.beginOk {
      AfterLoopLog(p, p.nextUpdate.value, contentLen, InitialLoop(p, contentLen, rs));
    }
  }

  /** What the receives in the handler's log returned. */
  lemma DecomposeRecvs(p: Platform, contentLen: nat, rs: seq<RecvResult>)
    requires !BeforeBegin(UploadPostHandler(p, contentLen, rs).status)
    ensures var o := UploadPostHandler(p, contentLen, rs);
      var mid := Transfer(InitialLoop(p, contentLen, rs));
      && (o.status == Fail(ReceiveFailed) ==>
            |mid| >= 1 && mid[|mid| - 1].Recv? && mid[|mid| - 1].result <= 0)
      && (o.status != Fail(ReceiveFailed) ==> PositiveRecvs(mid))
  {
    InitialLoopWellShaped(p, contentLen, rs);
    if p.running.Some? && p.nextUpdate.Some? && p.beginOk {
      AfterLoopRecvs(p, p.nextUpdate.value, contentLen, InitialLoop(p, contentLen, rs));
    }
  }

  /* ---------------------------------------------------------------------- */
  /* Call order                                                              */
  /* ---------------------------------------------------------------------- */

  /**
    Every request makes its calls in the order of the source: nothing when a
    partition is missing; just the begin call when it fails; otherwise the
    begin call on the update partition, receives and writes only, and then
    exactly the closing calls of the way it returned (abort; end; end and
    boot switch; or end, boot switch, success text and reboot task).
   */
  lemma UploadCallOrder(p: Platform, contentLen: nat, rs: seq<RecvResult>)
    ensures var o := UploadPostHandler(p, contentLen, rs);
      && (o.status == Fail(NoPartition) <==> p.running.None? || p.nextUpdate.None?)
      && (o.status == Fail(NoPartition) ==> o.log == [])
      && (o.status == Fail(BeginFailed) <==> p.running.Some? && p.nextUpdate.Some? && !p.beginOk)
      && (o.status == Fail(BeginFailed) ==> o.log == [Begin(p.nextUpdate.value, false)])
      && (!BeforeBegin(o.status) ==>
            var c := Closing(o.status, p.nextUpdate.value);
            && |o.log| >= 1 + |c|
            && o.log[0] == Begin(p.nextUpdate.value, true)
            && o.log[|o.log| - |c|..] == c
            && TransferOnly(o.log[1..|o.log| - |c|]))
  {
    var o := UploadPostHandler(p, contentLen, rs);
    if p.running.Some? && p.nextUpdate.Some? && p.beginOk {
      LoopAbortShape(p.failingWrites, contentLen, rs, Session(0, true, 0));
    }
    if !BeforeBegin(o.status) {
      DecomposeLog(p, contentLen, rs);
      var mid := Transfer(InitialLoop(p, contentLen, rs));
      var c := Closing(o.status, p.nextUpdate.value);
      assert o.log[1..|o.log| - |c|] == mid;
    }
  }

  /**
    Counting the calls of a request that got past `esp_ota_begin`: the
    closing calls decide every count except receives and writes.
   */
  lemma LogCounts(p: Platform, contentLen: nat, rs: seq<RecvResult>, boot: PartitionId)
    requires !BeforeBegin(UploadPostHandler(p, contentLen, rs).status)
    ensures p.nextUpdate.Some?
    ensures var o := UploadPostHandler(p, contentLen, rs);
      var mid := Transfer(InitialLoop(p, contentLen, rs));
      var c := Closing(o.status, p.nextUpdate.value);
      && Count(o.log, KBegin) == 1
      && Count(o.log, KAbort) == Count(c, KAbort)
      && Count(o.log, KEnd) == Count(c, KEnd)
      && Count(o.log, KSetBoot) == Count(c, KSetBoot)
      && Count(o.log, KSpawn) == Count(c, KSpawn)
      && Count(o.log, KRecv) == Count(mid, KRecv)
      && Passed(o.log) == Passed(mid)
      && Stored(o.log) == Stored(mid)
      && BootAfter(boot, o.log) == BootAfter(boot, c)
  {
    DecomposeLog(p, contentLen, rs);
    var o := UploadPostHandler(p, contentLen, rs);
    var u := p.nextUpdate.value;
    var mid := Transfer(InitialLoop(p, contentLen, rs));
    ClosingFacts(o.status, u, boot);
    OpenedCount(u, mid, o.status, KBegin);
    OpenedCount(u, mid, o.status, KAbort);
    OpenedCount(u, mid, o.status, KEnd);
    OpenedCount(u, mid, o.status, KSetBoot);
    OpenedCount(u, mid, o.status, KSpawn);
    OpenedCount(u, mid, o.status, KRecv);
    OpenedBytes(u, mid, o.status);
    OpenedBoot(u, mid, o.status, boot);
  }

  /* ---------------------------------------------------------------------- */
  /* Early returns                                                           */
  /* ---------------------------------------------------------------------- */

  /** A request that got past `esp_ota_begin` logs the begin call, then the loop's calls. */
  lemma OpenedLog(p: Platform, contentLen: nat, rs: seq<RecvResult>)
    requires p.running.Some? && p.nextUpdate.Some? && p.beginOk
    ensures var o := UploadPostHandler(p, contentLen, rs); var x := InitialLoop(p, contentLen, rs);
      && |o.log| >= 1 + |x.events|
      && o.log[..1 + |x.events|] == [Begin(p.nextUpdate.value, true)] + x.events
      && (x.Aborted? ==> o == Outcome(Fail(x.why), [Begin(p.nextUpdate.value, true)] + x.events))
  {
  }

  /**
    A request that returns before `esp_ota_begin` succeeded has made at
    most the begin call: nothing received, written, aborted, ended,
    switched or rebooted.
   */
  lemma BeforeBeginQuiet(p: Platform, contentLen: nat, rs: seq<RecvResult>, boot: PartitionId)
    requires BeforeBegin(UploadPostHandler(p, contentLen, rs).status)
    ensures var o := UploadPostHandler(p, contentLen, rs);
      && (o.log == [] || (p.nextUpdate.Some? && o.log == [Begin(p.nextUpdate.value, false)]))
      && Count(o.log, KRecv) == 0 && Count(o.log, KAbort) == 0 && Count(o.log, KEnd) == 0
      && Count(o.log, KSetBoot) == 0 && Count(o.log, KSpawn) == 0
      && Passed(o.log) == [] && BootAfter(boot, o.log) == boot && !HasRecvError(o.log)
  {
    UploadCallOrder(p, contentLen, rs);
    var o := UploadPostHandler(p, contentLen, rs);
    if o.log != [] {
      assert o.log[1..] == [];
    }
  }

  /** In a log that got past `esp_ota_begin`, the abort comes from the closing calls alone. */
  lemma OpenedAborts(u: PartitionId, mid: seq<Event>, st: Status)
    requires TransferOnly(mid) && !BeforeBegin(st)
    ensures var log := Opened(u, mid, st);
      && Count(log, KAbort) == (if AbortsTransfer(st) then 1 else 0)
      && (AbortsTransfer(st) ==>
            && log[|log| - 1] == Abort
            && Count(log, KEnd) == 0 && Count(log, KSetBoot) == 0 && Count(log, KSpawn) == 0)
  {
    ClosingFacts(st, u, 0);
    OpenedCount(u, mid, st, KAbort);
    OpenedCount(u, mid, st, KEnd);
    OpenedCount(u, mid, st, KSetBoot);
    OpenedCount(u, mid, st, KSpawn);
  }

  /**
    A failed receive, a missing header terminator, a failed first write and
    a size mismatch each call `esp_ota_abort` exactly once, as the last
    call, and then neither `esp_ota_end`, the boot switch nor the reboot
    happens. No other return aborts.
   */
  lemma FailedTransferAbortsOnce(p: Platform, contentLen: nat, rs: seq<RecvResult>)
    ensures var o := UploadPostHandler(p, contentLen, rs);
      && Count(o.log, KAbort) <= 1
      && (Count(o.log, KAbort) == 1 <==> AbortsTransfer(o.status))
      && (Count(o.log, KAbort) == 1 ==>
            && o.log[|o.log| - 1] == Abort
            && Count(o.log, KEnd) == 0 && Count(o.log, KSetBoot) == 0 && Count(o.log, KSpawn) == 0)
  {
    var o := UploadPostHandler(p, contentLen, rs);
    if BeforeBegin(o.status) {
      BeforeBeginQuiet(p, contentLen, rs, 0);
    } else {
      DecomposeLog(p, contentLen, rs);
      OpenedAborts(p.nextUpdate.value, Transfer(InitialLoop(p, contentLen, rs)), o.status);
    }
  }

  /** A request fails on a receive exactly when some receive returned 0 or less. */
  lemma ReceiveErrorIsLogged(p: Platform, contentLen: nat, rs: seq<RecvResult>)
    ensures var o := UploadPostHandler(p, contentLen, rs);
      o.status == Fail(ReceiveFailed) <==> HasRecvError(o.log)
  {
    var o := UploadPostHandler(p, contentLen, rs);
    if BeforeBegin(o.status) {
      BeforeBeginQuiet(p, contentLen, rs, 0);
    } else {
      DecomposeLog(p, contentLen, rs);
      DecomposeRecvs(p, contentLen, rs);
      var u := p.nextUpdate.value;
      var mid := Transfer(InitialLoop(p, contentLen, rs));
      var c := Closing(o.status, u);
      if o.status == Fail(ReceiveFailed) {
        assert o.log[|mid|] == mid[|mid| - 1];
      } else {
        ClosingFacts(o.status, u, 0);
        PositiveRecvsConcat([Begin(u, true)], mid);
        PositiveRecvsConcat([Begin(u, true)] + mid, c);
      }
    }
  }

  /**
    When the first chunk holds no header terminator before its first NUL
    byte, the request begins the OTA write, receives that chunk, aborts and
    fails: nothing is written, ended, switched or rebooted.
   */
  lemma HeaderMissingAbortsBeforeWriting(p: Platform, contentLen: nat, rs: seq<RecvResult>)
    requires p.running.Some? && p.nextUpdate.Some? && p.beginOk
    requires contentLen > 0 && |rs| > 0 && rs[0].Received? && |rs[0].data| > 0
    requires forall j: nat :: TerminatorAt(rs[0].data, j) ==> !NulFree(rs[0].data[..j])
    ensures UploadPostHandler(p, contentLen, rs) ==
      Outcome(Fail(HeaderNotFound), [Begin(p.nextUpdate.value, true), Recv(|rs[0].data|), Abort])
  {
    assert HeaderEnd(rs[0].data).None?;
  }

  /**
    When the first chunk's headers end at `k`, the first call after
    receiving it writes exactly the bytes after the terminator, when there
    are any; if that write fails the request aborts at once.
   */
  lemma FirstChunkWritesAfterTerminator(p: Platform, contentLen: nat, rs: seq<RecvResult>, k: nat)
    requires p.running.Some? && p.nextUpdate.Some? && p.beginOk
    requires contentLen > 0 && |rs| > 0 && rs[0].Received?
    requires TerminatorAt(rs[0].data, k) && NulFree(rs[0].data[..k])
    requires forall j: nat :: j < k ==> !TerminatorAt(rs[0].data, j)
    requires |rs[0].data| > k + 4
    ensures var o := UploadPostHandler(p, contentLen, rs); var d := rs[0].data;
      && (0 in p.failingWrites ==>
            o == Outcome(Fail(FirstWriteFailed),
                         [Begin(p.nextUpdate.value, true), Recv(|d|), Write(d[k + 4..], false), Abort]))
      && (0 !in p.failingWrites ==>
            |o.log| >= 3 && o.log[..3] == [Begin(p.nextUpdate.value, true), Recv(|d|), Write(d[k + 4..], true)])
  {
    var d := rs[0].data;
    assert HeaderEnd(d) == Some(k);
    OpenedLog(p, contentLen, rs);
    var x := InitialLoop(p, contentLen, rs);
    if 0 !in p.failingWrites {
      var ev := [Recv(|d|), Write(d[k + 4..], true)];
      assert x == Prepend(ev, ReceiveLoop(p.failingWrites, contentLen, rs[1..], Session(|d|, false, 1)));
      assert x.events[..2] == ev;
    }
  }

  /* ---------------------------------------------------------------------- */
  /* What reaches the partition                                              */
  /* ---------------------------------------------------------------------- */

  lemma {:induction false} WriteFreeStoresNothing(log: seq<Event>)
    requires forall i :: 0 <= i < |log| ==> !log[i].Write?
    ensures Stored(log) == [] && Passed(log) == []
    decreases |log|
  {
    if log != [] {
      WriteFreeStoresNothing(log[1..]);
    }
  }

  /**
    Once `esp_ota_end` is called, the loop has consumed the first `m`
    receive results, `m` being the number of receive calls: each carried
    bytes, together they are exactly the declared length (multipart header
    bytes included), and the bytes handed to `esp_ota_write` are the part of
    the first chunk after its header terminator followed by every later
    chunk verbatim, in arrival order. With no failing writes, all of them
    are stored.
   */
  lemma UploadPassesPayload(p: Platform, contentLen: nat, rs: seq<RecvResult>)
    ensures var o := UploadPostHandler(p, contentLen, rs);
      Count(o.log, KEnd) == 1 ==>
        var m := Count(o.log, KRecv);
        && m <= |rs|
        && (forall i :: 0 <= i < m ==> rs[i].Received? && |rs[i].data| > 0)
        && |Flatten(Chunks(rs[..m]))| == contentLen
        && (m > 0 ==> HeaderEnd(rs[0].data).Some?)
        && Passed(o.log) == Payload(Chunks(rs[..m]))
        && (p.failingWrites == {} ==> Stored(o.log) == Passed(o.log))
  {
    var o := UploadPostHandler(p, contentLen, rs);
    if BeforeBegin(o.status) {
      BeforeBeginQuiet(p, contentLen, rs, 0);
    } else {
      LogCounts(p, contentLen, rs, 0);
      ClosingFacts(o.status, p.nextUpdate.value, 0);
      if !AbortsTransfer(o.status) {
        DecomposeStatus(p, contentLen, rs);
        LoopConsumes(p.failingWrites, contentLen, rs, Session(0, true, 0));
        LoopPayload(p.failingWrites, contentLen, rs, Session(0, true, 0));
        if p.failingWrites == {} {
          LoopStoresAll(contentLen, rs, Session(0, true, 0));
        }
      }
    }
  }

  /**
    Under the receive call's contract (never more than the buffer nor more
    than the declared length still missing) the loop ends with `received`
    equal to the declared length, so the size-mismatch abort is unreachable.
   */
  lemma SizeMismatchUnreachable(p: Platform, contentLen: nat, rs: seq<RecvResult>)
    requires WithinDeclaredLength(contentLen, rs)
    ensures UploadPostHandler(p, contentLen, rs).status != Fail(SizeMismatch)
  {
    LoopShape(p.failingWrites, contentLen, rs, Session(0, true, 0));
    LoopDrainsExactly(p.failingWrites, contentLen, rs, Session(0, true, 0));
  }

  /**
    A transport that returns more than was declared does reach the
    size-mismatch abort: a first chunk longer than the declared length that
    holds the header terminator, and whose tail, if any, is written
    successfully, ends the loop with too many bytes received.
   */
  lemma OverlongReceiveMismatches(p: Platform, contentLen: nat, rs: seq<RecvResult>)
    requires p.running.Some? && p.nextUpdate.Some? && p.beginOk
    requires 0 < contentLen && rs != [] && rs[0].Received? && |rs[0].data| > contentLen
    requires HeaderEnd(rs[0].data).Some?
    requires FirstChunkWrites(rs[0]) ==> 0 !in p.failingWrites
    ensures var o := UploadPostHandler(p, contentLen, rs);
      && o.status == Fail(SizeMismatch) && |o.log| >= 1 && o.log[|o.log| - 1] == Abort
  {
    var s0 := Session(0, true, 0);
    ChunkStepContinues(p.failingWrites, s0, rs[0]);
    var st := ChunkStep(p.failingWrites, s0, rs[0]);
    assert ReceiveLoop(p.failingWrites, contentLen, rs[1..], st.next) == Drained(|rs[0].data|, []);
    assert InitialLoop(p, contentLen, rs) == Drained(|rs[0].data|, st.events + []);
  }

  /* ---------------------------------------------------------------------- */
  /* Boot pointer and reboot                                                 */
  /* ---------------------------------------------------------------------- */

  /** Where a boot switch can sit in a log of the shape `Decompose` gives. */
  lemma SetBootPosition(u: PartitionId, mid: seq<Event>, st: Status)
    requires TransferOnly(mid) && !BeforeBegin(st)
    ensures var log := [Begin(u, true)] + mid + Closing(st, u);
      forall i :: 0 <= i < |log| && log[i].SetBoot? ==>
        1 <= i && log[i - 1] == End(true) && log[i].part == u
  {
    var log := [Begin(u, true)] + mid + Closing(st, u);
    var c := Closing(st, u);
    forall i | 0 <= i < |log| && log[i].SetBoot?
      ensures 1 <= i && log[i - 1] == End(true) && log[i].part == u
    {
      if i > |mid| {
        assert log[i] == c[i - 1 - |mid|];
        if i - 1 - |mid| >= 1 {
          assert log[i - 1] == c[i - 2 - |mid|];
        }
      }
    }
  }

  /**
    The boot pointer moves at most once per request, and it ends on the
    update partition exactly when the request succeeds; every failure
    leaves it where it was.
   */
  lemma BootPointerMovesOnlyOnSuccess(p: Platform, contentLen: nat, rs: seq<RecvResult>, boot: PartitionId)
    ensures var o := UploadPostHandler(p, contentLen, rs);
      && Count(o.log, KSetBoot) <= 1
      && (o.status == Success ==> p.nextUpdate.Some? && BootAfter(boot, o.log) == p.nextUpdate.value)
      && (o.status != Success ==> BootAfter(boot, o.log) == boot)
  {
    var o := UploadPostHandler(p, contentLen, rs);
    if BeforeBegin(o.status) {
      BeforeBeginQuiet(p, contentLen, rs, boot);
    } else {
      LogCounts(p, contentLen, rs, boot);
      ClosingFacts(o.status, p.nextUpdate.value, boot);
    }
  }

  /**
    Every boot switch a request makes comes right after a successful
    `esp_ota_end`, and names the partition that `esp_ota_begin` opened as
    its first call, the one `esp_ota_get_next_update_partition` chose.
   */
  lemma SetBootOnlyAfterEnd(p: Platform, contentLen: nat, rs: seq<RecvResult>)
    ensures var o := UploadPostHandler(p, contentLen, rs);
      forall i :: 0 <= i < |o.log| && o.log[i].SetBoot? ==>
        && 1 <= i && o.log[i - 1] == End(true)
        && p.nextUpdate == Some(o.log[i].part)
        && o.log[0] == Begin(o.log[i].part, true)
  {
    var o := UploadPostHandler(p, contentLen, rs);
    if BeforeBegin(o.status) {
      BeforeBeginQuiet(p, contentLen, rs, 0);
    } else {
      DecomposeLog(p, contentLen, rs);
      SetBootPosition(p.nextUpdate.value, Transfer(InitialLoop(p, contentLen, rs)), o.status);
    }
  }

  /**
    A reboot is scheduled at most once, exactly when the request succeeds,
    which is exactly when the handler returns ESP_OK; it comes after the
    boot switch succeeded and after the success text was sent.
   */
  lemma RebootOnlyAfterSuccessResponse(p: Platform, contentLen: nat, rs: seq<RecvResult>)
    ensures var o := UploadPostHandler(p, contentLen, rs);
      && Count(o.log, KSpawn) <= 1
      && (Count(o.log, KSpawn) == 1 <==> o.status == Success)
      && (EspResult(o.status) == EspOk <==> o.status == Success)
      && (o.status == Success ==>
            && p.nextUpdate.Some? && |o.log| >= 4
            && o.log[|o.log| - 4..] ==
                 [End(true), SetBoot(p.nextUpdate.value, true), SendText(SuccessText), SpawnReboot])
  {
    var o := UploadPostHandler(p, contentLen, rs);
    if BeforeBegin(o.status) {
      BeforeBeginQuiet(p, contentLen, rs, 0);
    } else {
      LogCounts(p, contentLen, rs, 0);
      ClosingFacts(o.status, p.nextUpdate.value, 0);
      UploadCallOrder(p, contentLen, rs);
    }
  }

  /** `GET /reboot` schedules the reboot task unconditionally, before it answers. */
  lemma RebootRouteSchedulesUnconditionally()
    ensures var o := RebootHandler();
      && o.status == Success && EspResult(o.status) == EspOk
      && Count(o.log, KSpawn) == 1 && o.log[0] == SpawnReboot
      && o.log[1..] == [SendText(RebootText)]
  {
    var o := RebootHandler();
    assert o.log == [SpawnReboot] + [SendText(RebootText)];
    SingleCall(SpawnReboot, 0);
    SingleCall(SendText(RebootText), 0);
    Concat([SpawnReboot], [SendText(RebootText)], 0);
  }

  /* ---------------------------------------------------------------------- */
  /* Ignored write results                                                   */
  /* ---------------------------------------------------------------------- */

  /**
    `failingWrites` means what it says: the `n`-th `esp_ota_write` call of
    a request, counting from 0, fails exactly when `n` is in it.
   */
  lemma WriteOrdinals(p: Platform, contentLen: nat, rs: seq<RecvResult>)
    ensures WritesFollowOrdinals(UploadPostHandler(p, contentLen, rs).log, p.failingWrites, 0)
  {
    var o := UploadPostHandler(p, contentLen, rs);
    if p.running.Some? && p.nextUpdate.Some? && p.beginOk {
      var u := p.nextUpdate.value;
      var x := InitialLoop(p, contentLen, rs);
      var tail := o.log[1 + |x.events|..];
      assert o.log == [Begin(u, true)] + x.events + tail;
      assert forall i :: 0 <= i < |tail| ==> !tail[i].Write?;
      LoopWriteOrdinals(p.failingWrites, contentLen, rs, Session(0, true, 0));
      SingleCall(Begin(u, true), 0);
      WritesFollowOrdinalsAppend([Begin(u, true)], x.events, p.failingWrites, 0);
      WritesFollowOrdinalsAppend([Begin(u, true)] + x.events, tail, p.failingWrites, 0);
    }
  }

  /**
    Only the result of the write of the first chunk's data matters: two
    platforms that agree on whether write 0 fails, when the first chunk
    writes at all, give the same status, the same calls with the same bytes
    (write results aside) and the same bytes handed to the partition,
    however the other writes fare.
   */
  lemma LaterWriteFailuresIgnored(p: Platform, failing: set<nat>, contentLen: nat, rs: seq<RecvResult>)
    requires rs != [] && FirstChunkWrites(rs[0]) ==> (0 in p.failingWrites <==> 0 in failing)
    ensures var o1 := UploadPostHandler(p, contentLen, rs);
      var o2 := UploadPostHandler(p.(failingWrites := failing), contentLen, rs);
      && o1.status == o2.status
      && Erase(o1.log) == Erase(o2.log)
      && Passed(o1.log) == Passed(o2.log)
  {
    var p2 := p.(failingWrites := failing);
    var o1 := UploadPostHandler(p, contentLen, rs);
    var o2 := UploadPostHandler(p2, contentLen, rs);
    var s0 := Session(0, true, 0);
    LoopIgnoresLaterWrites(p.failingWrites, failing, contentLen, rs, s0);
    if p.running.Some? && p.nextUpdate.Some? && p.beginOk {
      var u := p.nextUpdate.value;
      var x1 := InitialLoop(p, contentLen, rs);
      var x2 := InitialLoop(p2, contentLen, rs);
      var tail := o1.log[1 + |x1.events|..];
      assert o1.log == [Begin(u, true)] + x1.events + tail;
      assert o2.log == [Begin(u, true)] + x2.events + tail;
      EraseConcat([Begin(u, true)] + x1.events, tail);
      EraseConcat([Begin(u, true)], x1.events);
      EraseConcat([Begin(u, true)] + x2.events, tail);
      EraseConcat([Begin(u, true)], x2.events);
    }
    PassedErase(o1.log);
    PassedErase(o2.log);
  }

  /**
    A first chunk that is nothing but the header terminator writes nothing,
    so no write result is looked at: on a platform whose begin, end and boot
    switch succeed, non-empty later chunks that make up the rest of the
    declared length give success, whichever writes fail.
   */
  lemma HeaderOnlyFirstChunkSucceeds(p: Platform, contentLen: nat, later: seq<seq<byte>>)
    requires p.running.Some? && p.nextUpdate.Some? && p.beginOk && p.endOk && p.setBootOk
    requires forall i :: 0 <= i < |later| ==> |later[i]| > 0
    requires contentLen == |HeaderTerminator| + |Flatten(later)|
    ensures var o := UploadPostHandler(p, contentLen, [Received(HeaderTerminator)] + AsReceived(later));
      && o.status == Success && Passed(o.log) == Flatten(later)
  {
    var fw := p.failingWrites;
    var rs := [Received(HeaderTerminator)] + AsReceived(later);
    assert TerminatorAt(HeaderTerminator, 0);
    HeaderEndIsFirstTerminator(HeaderTerminator, 0);
    assert rs[0] == Received(HeaderTerminator) && rs[1..] == AsReceived(later);
    var s1 := Session(4, false, 0);
    assert ChunkStep(fw, Session(0, true, 0), rs[0]) == Continue(s1, [Recv(4)]);
    LoopDeliversLaterChunks(fw, contentLen, later, s1);
    var y := ReceiveLoop(fw, contentLen, rs[1..], s1);
    assert InitialLoop(p, contentLen, rs) == Drained(contentLen, [Recv(4)] + y.events);
    var u := p.nextUpdate.value;
    assert UploadPostHandler(p, contentLen, rs).log == Opened(u, [Recv(4)] + y.events, Success);
    OpenedBytes(u, [Recv(4)] + y.events, Success);
    PassedAppend([Recv(4)], y.events);
    SingleCall(Recv(4), 0);
  }

  /**
    For example, with write 0 failing, a first chunk of just the terminator
    followed by one byte still succeeds; that byte is passed to the failing
    write, so nothing is stored.
   */
  lemma HeaderOnlyFirstChunkIgnoresWriteZero()
    ensures var o := UploadPostHandler(Platform(Some(0), Some(1), true, {0}, true, true), 5,
                                       [Received([13, 10, 13, 10]), Received([7])]);
      && o.status == Success && Passed(o.log) == [7] && Stored(o.log) == []
  {
    var c0: seq<byte> := [13, 10, 13, 10];
    assert TerminatorAt(c0, 0);
    HeaderEndIsFirstTerminator(c0, 0);
    var p := Platform(Some(0), Some(1), true, {0}, true, true);
    var rs := [Received(c0), Received([7])];
    var mid := [Recv(4), Recv(1), Write([7], false)];
    assert ReceiveLoop({0}, 5, rs[1..], Session(4, false, 0)) == Drained(5, [Recv(1), Write([7], false)]);
    assert InitialLoop(p, 5, rs) == Drained(5, mid);
    assert UploadPostHandler(p, 5, rs).log == Opened(1, mid, Success);
    OpenedBytes(1, mid, Success);
    assert mid == [Recv(4)] + [Recv(1)] + [Write([7], false)];
    Concat([Recv(4)] + [Recv(1)], [Write([7], false)], 0);
    Concat([Recv(4)], [Recv(1)], 0);
    SingleCall(Recv(4), 0);
    SingleCall(Recv(1), 0);
    SingleCall(Write([7], false), 0);
    assert Stored(mid) == Stored([Recv(4)] + [Recv(1)]) + Stored([Write([7], false)]) by {
      PassedAppend([Recv(4)] + [Recv(1)], [Write([7], false)]);
    }
    WriteFreeStoresNothing([Recv(4)] + [Recv(1)]);
    assert [Write([7], false)][1..] == [];
  }

  /* ---------------------------------------------------------------------- */
  /* A well-formed upload                                                    */
  /* ---------------------------------------------------------------------- */

  /** Cutting a body after a first chunk that holds the header block and the empty line. */
  lemma HeadersInFirstChunk(headers: seq<byte>, rest: seq<byte>, c0: seq<byte>, tail: seq<byte>)
    requires c0 + tail == headers + HeaderTerminator + rest
    requires |c0| >= |headers| + 4
    ensures c0 == headers + HeaderTerminator + c0[|headers| + 4..]
    ensures rest == c0[|headers| + 4..] + tail
    ensures forall j: nat :: j < |headers| && TerminatorAt(c0, j) ==> TerminatorAt(headers + HeaderTerminator + rest, j)
  {
    var body := headers + HeaderTerminator + rest;
    assert c0 == body[..|c0|];
    assert body[|headers| + 4..] == rest;
    forall j: nat | j < |headers| && TerminatorAt(c0, j)
      ensures TerminatorAt(body, j)
    {
      assert c0[j..j + 4] == body[j..j + 4];
    }
  }

  /**
    A first chunk that holds the whole multipart header block ends its
    headers where the block ends, and what follows it in the chunk, then the
    later chunks, make up the rest of the body.
   */
  lemma FirstChunkOfHeaders(headers: seq<byte>, rest: seq<byte>, chunks: seq<seq<byte>>)
    requires NulFree(headers)
    requires forall j: nat :: j < |headers| ==> !TerminatorAt(headers + HeaderTerminator + rest, j)
    requires |chunks| > 0 && |chunks[0]| >= |headers| + 4
    requires Flatten(chunks) == headers + HeaderTerminator + rest
    ensures HeaderEnd(chunks[0]) == Some(|headers|)
    ensures rest == chunks[0][|headers| + 4..] + Flatten(chunks[1..])
  {
    var c0 := chunks[0];
    assert Flatten(chunks) == c0 + Flatten(chunks[1..]);
    HeadersInFirstChunk(headers, rest, c0, Flatten(chunks[1..]));
    HeaderEndAfterHeaders(headers, c0[|headers| + 4..]);
  }

  /** The first iteration on a chunk whose headers end at `h` writes what follows them, and goes on. */
  lemma FirstChunkStep(fw: set<nat>, c0: seq<byte>, h: nat)
    requires 0 !in fw && HeaderEnd(c0) == Some(h)
    ensures var st := ChunkStep(fw, Session(0, true, 0), Received(c0));
      && st.Continue? && st.next.received == |c0| && !st.next.firstChunk
      && Passed(st.events) == c0[h + 4..]
      && (fw == {} ==> Stored(st.events) == Passed(st.events))
  {
    ChunkStepContinues(fw, Session(0, true, 0), Received(c0));
    ChunkStepPasses(fw, Session(0, true, 0), Received(c0));
  }

  /** The receive loop over such a body drains it and hands exactly the rest to the partition. */
  lemma LoopOverWellFormedBody(fw: set<nat>, headers: seq<byte>, rest: seq<byte>, chunks: seq<seq<byte>>)
    requires 0 !in fw
    requires NulFree(headers)
    requires forall j: nat :: j < |headers| ==> !TerminatorAt(headers + HeaderTerminator + rest, j)
    requires |chunks| > 0 && |chunks[0]| >= |headers| + 4
    requires forall i :: 0 <= i < |chunks| ==> |chunks[i]| > 0
    requires Flatten(chunks) == headers + HeaderTerminator + rest
    ensures var x := ReceiveLoop(fw, |headers| + 4 + |rest|, AsReceived(chunks), Session(0, true, 0));
      && x.Drained? && x.received == |headers| + 4 + |rest|
      && Passed(x.events) == rest
      && (fw == {} ==> Stored(x.events) == rest)
  {
    var total := |headers| + 4 + |rest|;
    FirstChunkOfHeaders(headers, rest, chunks);
    var c0 := chunks[0];
    var later := chunks[1..];
    var rs := AsReceived(chunks);
    assert rs[0] == Received(c0) && rs[1..] == AsReceived(later);
    assert |Flatten(chunks)| == |c0| + |Flatten(later)|;
    var s0 := Session(0, true, 0);
    FirstChunkStep(fw, c0, |headers|);
    var st := ChunkStep(fw, s0, rs[0]);
    LoopDeliversLaterChunks(fw, total, later, st.next);
    var x2 := ReceiveLoop(fw, total, AsReceived(later), st.next);
    assert ReceiveLoop(fw, total, rs, s0) == Drained(total, st.events + x2.events);
    PassedAppend(st.events, x2.events);
  }

  /**
    A body made of multipart headers, the empty line and then the rest,
    declared with its exact length and delivered in non-empty chunks whose
    first one holds all the headers: on a platform whose calls succeed, the
    request succeeds, exactly the rest of the body (closing delimiter
    included) is handed to the partition, and the boot pointer ends on the
    update partition.
   */
  lemma UploadFlashesBodyAfterHeaders(p: Platform, headers: seq<byte>, rest: seq<byte>,
                                      chunks: seq<seq<byte>>, boot: PartitionId)
    requires p.running.Some? && p.nextUpdate.Some? && p.beginOk && p.endOk && p.setBootOk
    requires 0 !in p.failingWrites
    requires NulFree(headers)
    requires forall j: nat :: j < |headers| ==> !TerminatorAt(headers + HeaderTerminator + rest, j)
    requires |chunks| > 0 && |chunks[0]| >= |headers| + 4
    requires forall i :: 0 <= i < |chunks| ==> |chunks[i]| > 0
    requires Flatten(chunks) == headers + HeaderTerminator + rest
    ensures var o := UploadPostHandler(p, |headers| + 4 + |rest|, AsReceived(chunks));
      && o.status == Success
      && Passed(o.log) == rest
      && (p.failingWrites == {} ==> Stored(o.log) == rest)
      && BootAfter(boot, o.log) == p.nextUpdate.value
  {
    var total := |headers| + 4 + |rest|;
    var rs := AsReceived(chunks);
    LoopOverWellFormedBody(p.failingWrites, headers, rest, chunks);
    assert UploadPostHandler(p, total, rs).status == Success;
    LogCounts(p, total, rs, boot);
    ClosingFacts(Success, p.nextUpdate.value, boot);
  }
}

=== FILE: upload_properties.dfy ===
/**
  Properties of the upload handler model, stated over the call log: the
  order of the OTA calls, the bytes that reach the partition, when the boot
  pointer moves and when a reboot is scheduled.
 */
module UploadProperties {
  import opened Multipart
  import opened OtaLog
  import opened UploadHandler

  /* ---------------------------------------------------------------------- */
  /* Vocabulary                                                              */
  /* ---------------------------------------------------------------------- */

  /** Every receive in the log returned some bytes. */
  predicate PositiveRecvs(log: seq<Event>) {
    forall i :: 0 <= i < |log| && log[i].Recv? ==> log[i].result > 0
  }

  /** Some receive in the log returned 0 or an error. */
  predicate HasRecvError(log: seq<Event>) {
    exists i :: 0 <= i < |log| && log[i].Recv? && log[i].result <= 0
  }

  /** The calls after the receive loop, for each way the handler returns after `esp_ota_begin` succeeded. */
  function Closing(s: Status, update: PartitionId): seq<Event> {
    match s
    case Success => [End(true), SetBoot(update, true), SendText(SuccessText), SpawnReboot]
    case Fail(EndFailed) => [End(false)]
    case Fail(SetBootFailed) => [End(true), SetBoot(update, false)]
    case Fail(_) => [Abort]
  }

  /**
    The first chunk leads to a write: it carries bytes, holds the header
    terminator, and has bytes after it.
   */
  predicate FirstChunkWrites(r: RecvResult) {
    r.Received? && HeaderEnd(r.data).Some? && HeaderEnd(r.data).value + 4 < |r.data|
  }

  /** A log with the write results forgotten. */
  function Erase(log: seq<Event>): (r: seq<Event>)
    ensures |r| == |log|
  {
    seq(|log|, i requires 0 <= i < |log| => if log[i].Write? then Write(log[i].data, true) else log[i])
  }

  /** A transport that delivers each chunk as one receive result. */
  function AsReceived(chunks: seq<seq<byte>>): (rs: seq<RecvResult>)
    ensures |rs| == |chunks|
  {
    seq(|chunks|, i requires 0 <= i < |chunks| => Received(chunks[i]))
  }

  /**
    The receive call's contract: it never returns more than the buffer
    holds nor more than is left of the declared body length.
   */
  predicate WithinDeclaredLength(remaining: int, rs: seq<RecvResult>)
    decreases |rs|
  {
    rs == [] ||
    match rs[0]
    case SocketError(_) => true
    case Received(d) =>
      |d| <= RecvBufferSize && |d| <= remaining && WithinDeclaredLength(remaining - |d|, rs[1..])
  }

  /* ---------------------------------------------------------------------- */
  /* Sequence helpers                                                        */
  /* ---------------------------------------------------------------------- */

  lemma TransferOnlyConcat(a: seq<Event>, b: seq<Event>)
    requires TransferOnly(a) && TransferOnly(b)
    ensures TransferOnly(a + b)
  {
  }

  lemma PositiveRecvsConcat(a: seq<Event>, b: seq<Event>)
    requires PositiveRecvs(a) && PositiveRecvs(b)
    ensures PositiveRecvs(a + b)
  {
  }

  lemma EraseConcat(a: seq<Event>, b: seq<Event>)
    ensures Erase(a + b) == Erase(a) + Erase(b)
  {
  }

  lemma {:induction false} PassedErase(log: seq<Event>)
    ensures Passed(Erase(log)) == Passed(log)
    decreases |log|
  {
    if log != [] {
      assert Erase(log)[1..] == Erase(log[1..]);
      PassedErase(log[1..]);
    }
  }

  lemma ChunksPrefix(rs: seq<RecvResult>, m: nat)
    requires 1 <= m <= |rs|
    ensures Chunks(rs[..m]) == [ChunkData(rs[0])] + Chunks(rs[1..][..m - 1])
  {
  }

  /* ---------------------------------------------------------------------- */
  /* One loop iteration                                                      */
  /* ---------------------------------------------------------------------- */

  /** An iteration that goes on has received bytes and made at most one write. */
  lemma ChunkStepContinues(fw: set<nat>, s: Session, r: RecvResult)
    requires ChunkStep(fw, s, r).Continue?
    ensures var st := ChunkStep(fw, s, r); var ev := st.events;
      && r.Received? && |r.data| > 0
      && st.next == Session(s.received + |r.data|, false, st.next.writes)
      && s.writes <= st.next.writes <= s.writes + 1
      && (!s.firstChunk ==> st.next.writes == s.writes + 1)
      && (s.firstChunk ==> HeaderEnd(r.data).Some?)
      && |ev| >= 1 && ev[0] == Recv(|r.data|) && Count(ev, KRecv) == 1
      && TransferOnly(ev) && PositiveRecvs(ev)
  {
    var d := r.data;
    if !s.firstChunk {
      RecvThenWrite(|d|, d, s.writes !in fw);
    } else if |d[HeaderEnd(d).value + 4..]| > 0 {
      RecvThenWrite(|d|, d[HeaderEnd(d).value + 4..], true);
    } else {
      RecvThenWrite(|d|, [], true);
    }
  }

  /**
    An iteration that goes on hands the partition the chunk's bytes, or for
    the first chunk those after its header terminator.
   */
  lemma ChunkStepPasses(fw: set<nat>, s: Session, r: RecvResult)
    requires ChunkStep(fw, s, r).Continue?
    ensures r.Received? && (s.firstChunk ==> HeaderEnd(r.data).Some?)
    ensures var ev := ChunkStep(fw, s, r).events;
      && Passed(ev) == (if s.firstChunk then r.data[HeaderEnd(r.data).value + 4..] else r.data)
      && (fw == {} ==> Stored(ev) == Passed(ev))
  {
    var d := r.data;
    var ev := ChunkStep(fw, s, r).events;
    if !s.firstChunk {
      assert ev == [Recv(|d|), Write(d, s.writes !in fw)];
      RecvThenWrite(|d|, d, s.writes !in fw);
    } else {
      var k := HeaderEnd(d).value;
      if |d[k + 4..]| == 0 {
        assert ev == [Recv(|d|)];
        assert [Recv(|d|)][1..] == [];
        assert Passed(ev) == [] == d[k + 4..] && Stored(ev) == [];
      } else {
        assert ev == [Recv(|d|), Write(d[k + 4..], true)];
        RecvThenWrite(|d|, d[k + 4..], true);
      }
    }
  }

  /** An iteration that stops has received once and then aborted, for one of three reasons. */
  lemma ChunkStepStops(fw: set<nat>, s: Session, r: RecvResult)
    requires ChunkStep(fw, s, r).Stop?
    ensures var st := ChunkStep(fw, s, r); var why := st.why; var ev := st.events;
      && |ev| >= 2 && ev[|ev| - 1] == Abort && TransferOnly(ev[..|ev| - 1])
      && (why == ReceiveFailed || why == HeaderNotFound || why == FirstWriteFailed)
      && (why == ReceiveFailed <==> BytesRead(r) <= 0)
      && (why == ReceiveFailed ==> ev == [Recv(BytesRead(r)), Abort])
      && (why == HeaderNotFound ==> s.firstChunk && HeaderEnd(r.data).None? && ev == [Recv(BytesRead(r)), Abort])
      && (why == FirstWriteFailed ==> s.firstChunk && s.writes in fw)
      && (why != ReceiveFailed ==> PositiveRecvs(ev))
  {
  }

  /**
    An iteration makes at most one `esp_ota_write` call; one that goes on
    advances the write counter by the writes it logged; and the write it
    makes, if any, succeeds exactly when its ordinal is not failing.
   */
  lemma ChunkStepWrites(fw: set<nat>, s: Session, r: RecvResult)
    ensures var st := ChunkStep(fw, s, r); var ev := st.events;
      && Count(ev, KWrite) <= 1
      && (st.Continue? ==> st.next.writes == s.writes + Count(ev, KWrite))
      && WritesFollowOrdinals(ev, fw, s.writes)
  {
    match r
    case SocketError(c) =>
      WriteFree([Recv(c), Abort], fw, s.writes);
    case Received(d) =>
      if |d| == 0 {
        WriteFree([Recv(0), Abort], fw, s.writes);
      } else if !s.firstChunk {
        RecvWriteOrdinal(|d|, d, fw, s.writes);
      } else {
        match HeaderEnd(d)
        case None =>
          WriteFree([Recv(|d|), Abort], fw, s.writes);
        case Some(k) =>
          if |d[k + 4..]| == 0 {
            WriteFree([Recv(|d|)], fw, s.writes);
          } else {
            RecvWriteOrdinal(|d|, d[k + 4..], fw, s.writes);
          }
      }
  }

  /** A log without writes has none to number. */
  lemma {:induction false} WriteFree(ev: seq<Event>, fw: set<nat>, first: nat)
    requires forall i :: 0 <= i < |ev| ==> !ev[i].Write?
    ensures Count(ev, KWrite) == 0 && WritesFollowOrdinals(ev, fw, first)
    decreases |ev|
  {
    if ev != [] {
      WriteFree(ev[1..], fw, first);
    }
  }

  /** A receive followed by the write numbered `first`, with or without the abort after it. */
  lemma RecvWriteOrdinal(n: int, data: seq<byte>, fw: set<nat>, first: nat)
    ensures var ok := first !in fw;
      && Count([Recv(n), Write(data, ok)], KWrite) == 1
      && WritesFollowOrdinals([Recv(n), Write(data, ok)], fw, first)
      && Count([Recv(n), Write(data, ok), Abort], KWrite) == 1
      && WritesFollowOrdinals([Recv(n), Write(data, ok), Abort], fw, first)
  {
    var ok := first !in fw;
    var ev2 := [Recv(n), Write(data, ok)];
    var ev3 := [Recv(n), Write(data, ok), Abort];
    RecvThenWriteWrites(n, data, ok);
    assert ev2[..1] == ev3[..1] == [Recv(n)];
    assert ev3[..2] == ev2;
    assert ev3 == ev2 + [Abort];
    CountAppend(ev2, [Abort], KWrite);
    assert Count([Abort], KWrite) == 0 + Count([], KWrite);
  }

  /** The log of an iteration that receives `n` bytes and writes `data`. */
  lemma RecvThenWrite(n: int, data: seq<byte>, ok: bool)
    ensures Count([Recv(n), Write(data, ok)], KRecv) == 1 && Count([Recv(n)], KRecv) == 1
    ensures Passed([Recv(n), Write(data, ok)]) == data
    ensures Stored([Recv(n), Write(data, ok)]) == if ok then data else []
  {
    var ev := [Recv(n), Write(data, ok)];
    var w := [Write(data, ok)];
    assert ev[1..] == w && w[1..] == [] && [Recv(n)][1..] == [];
    assert Passed(w) == data + Passed([]);
    assert Stored(w) == (if ok then data else []) + Stored([]);
    assert Count(w, KRecv) == 0 + Count([], KRecv);
    assert Count([Recv(n)], KRecv) == 1 + Count([], KRecv);
  }

  /** The writes such an iteration logs. */
  lemma RecvThenWriteWrites(n: int, data: seq<byte>, ok: bool)
    ensures Count([Recv(n), Write(data, ok)], KWrite) == 1 && Count([Recv(n)], KWrite) == 0
  {
    var w := [Write(data, ok)];
    assert [Recv(n), Write(data, ok)][1..] == w && w[1..] == [] && [Recv(n)][1..] == [];
    assert Count(w, KWrite) == 1 + Count([], KWrite);
    assert Count([Recv(n)], KWrite) == 0 + Count([], KWrite);
  }

  /* ---------------------------------------------------------------------- */
  /* The receive loop                                                        */
  /* ---------------------------------------------------------------------- */

  /** A loop that runs to completion only received bytes and wrote. */
  lemma {:induction false} LoopDrainedShape(fw: set<nat>, total: nat, rs: seq<RecvResult>, s: Session)
    ensures var x := ReceiveLoop(fw, total, rs, s);
      x.Drained? ==> x.received >= total && TransferOnly(x.events) && PositiveRecvs(x.events)
    decreases |rs|
  {
    if s.received < total && rs != [] {
      match ChunkStep(fw, s, rs[0])
      case Stop(_, _) =>
      case Continue(next, ev) =>
        ChunkStepContinues(fw, s, rs[0]);
        LoopDrainedShape(fw, total, rs[1..], next);
        var x := ReceiveLoop(fw, total, rs[1..], next);
        if x.Drained? {
          TransferOnlyConcat(ev, x.events);
          PositiveRecvsConcat(ev, x.events);
        }
    }
  }

  /** Earlier receives and writes in front of an early return keep the abort last. */
  lemma PrependAbort(ev: seq<Event>, x: LoopExit)
    requires TransferOnly(ev) && x.Aborted?
    requires |x.events| >= 2 && x.events[|x.events| - 1] == Abort && TransferOnly(x.events[..|x.events| - 1])
    ensures var y := Prepend(ev, x);
      && y.Aborted? && y.why == x.why
      && |y.events| >= 2 && y.events[|y.events| - 1] == Abort && TransferOnly(y.events[..|y.events| - 1])
  {
    var all := ev + x.events;
    assert all[..|all| - 1] == ev + x.events[..|x.events| - 1];
    TransferOnlyConcat(ev, x.events[..|x.events| - 1]);
  }

  /** Earlier successful receives in front of a failed one keep it the last receive. */
  lemma PrependRecvError(ev: seq<Event>, x: LoopExit)
    requires PositiveRecvs(ev) && x.Aborted?
    requires |x.events| >= 2 && x.events[|x.events| - 2].Recv? && x.events[|x.events| - 2].result <= 0
    requires PositiveRecvs(x.events[..|x.events| - 2])
    ensures var y := Prepend(ev, x);
      && y.Aborted? && y.why == x.why
      && |y.events| >= 2 && y.events[|y.events| - 2].Recv? && y.events[|y.events| - 2].result <= 0
      && PositiveRecvs(y.events[..|y.events| - 2])
  {
    var all := ev + x.events;
    assert all[..|all| - 2] == ev + x.events[..|x.events| - 2];
    PositiveRecvsConcat(ev, x.events[..|x.events| - 2]);
  }

  /** A loop that returns early has received and written, then aborted once, as its last call. */
  lemma {:induction false} LoopAbortShape(fw: set<nat>, total: nat, rs: seq<RecvResult>, s: Session)
    ensures var x := ReceiveLoop(fw, total, rs, s);
      x.Aborted? ==>
        && |x.events| >= 2 && x.events[|x.events| - 1] == Abort
        && TransferOnly(x.events[..|x.events| - 1])
        && (x.why == ReceiveFailed || x.why == HeaderNotFound || x.why == FirstWriteFailed)
    decreases |rs|
  {
    if s.received >= total {
    } else if rs == [] {
      var ev := [Recv(0), Abort];
      assert ev[..|ev| - 1] == [Recv(0)];
    } else {
      ChunkStepAbortShape(fw, s, rs[0]);
      match ChunkStep(fw, s, rs[0])
      case Stop(_, _) =>
      case Continue(next, ev) =>
        LoopAbortShape(fw, total, rs[1..], next);
        var x := ReceiveLoop(fw, total, rs[1..], next);
        if x.Aborted? {
          PrependAbort(ev, x);
        }
    }
  }

  /** The part of `ChunkStepContinues` and `ChunkStepStops` that `LoopAbortShape` needs. */
  lemma ChunkStepAbortShape(fw: set<nat>, s: Session, r: RecvResult)
    ensures var st := ChunkStep(fw, s, r); var ev := st.events;
      && (st.Continue? ==> TransferOnly(ev))
      && (st.Stop? ==>
            && |ev| >= 2 && ev[|ev| - 1] == Abort && TransferOnly(ev[..|ev| - 1])
            && (st.why == ReceiveFailed || st.why == HeaderNotFound || st.why == FirstWriteFailed))
  {
    if ChunkStep(fw, s, r).Continue? {
      ChunkStepContinues(fw, s, r);
    } else {
      ChunkStepStops(fw, s, r);
    }
  }

  /** A loop that fails on a receive ends with that receive, every earlier one having returned bytes. */
  lemma {:induction false} LoopRecvErrorShape(fw: set<nat>, total: nat, rs: seq<RecvResult>, s: Session)
    ensures var x := ReceiveLoop(fw, total, rs, s); var ev := x.events;
      x.Aborted? && x.why == ReceiveFailed ==>
        && |ev| >= 2 && ev[|ev| - 2].Recv? && ev[|ev| - 2].result <= 0
        && PositiveRecvs(ev[..|ev| - 2])
    decreases |rs|
  {
    if s.received >= total {
    } else if rs == [] {
      var ev := [Recv(0), Abort];
      assert ev[..|ev| - 2] == [];
    } else {
      match ChunkStep(fw, s, rs[0])
      case Stop(_, ev) =>
        ChunkStepStops(fw, s, rs[0]);
      case Continue(next, ev) =>
        ChunkStepContinues(fw, s, rs[0]);
        LoopRecvErrorShape(fw, total, rs[1..], next);
        var x := ReceiveLoop(fw, total, rs[1..], next);
        if x.Aborted? && x.why == ReceiveFailed {
          PrependRecvError(ev, x);
        }
    }
  }

  /** A loop that returns early for any other reason got bytes from every receive. */
  lemma {:induction false} LoopOtherAbortShape(fw: set<nat>, total: nat, rs: seq<RecvResult>, s: Session)
    ensures var x := ReceiveLoop(fw, total, rs, s);
      x.Aborted? && x.why != ReceiveFailed ==> PositiveRecvs(x.events)
    decreases |rs|
  {
    if s.received < total && rs != [] {
      match ChunkStep(fw, s, rs[0])
      case Stop(_, _) =>
        ChunkStepStops(fw, s, rs[0]);
      case Continue(next, ev) =>
        ChunkStepContinues(fw, s, rs[0]);
        LoopOtherAbortShape(fw, total, rs[1..], next);
        var x := ReceiveLoop(fw, total, rs[1..], next);
        if x.Aborted? && x.why != ReceiveFailed {
          PositiveRecvsConcat(ev, x.events);
        }
    }
  }

  /**
    The shape of every loop exit: the loop only receives and writes; when it
    returns early it has called `esp_ota_abort` exactly once, as its last
    call, and a receive result of 0 or less is the last receive exactly when
    that is the reason.
   */
  predicate WellShaped(x: LoopExit) {
    match x
    case Drained(_, ev) => TransferOnly(ev) && PositiveRecvs(ev)
    case Aborted(why, ev) =>
      && |ev| >= 2 && ev[|ev| - 1] == Abort && TransferOnly(ev[..|ev| - 1])
      && (why == ReceiveFailed || why == HeaderNotFound || why == FirstWriteFailed)
      && (why == ReceiveFailed ==>
            ev[|ev| - 2].Recv? && ev[|ev| - 2].result <= 0 && PositiveRecvs(ev[..|ev| - 2]))
      && (why != ReceiveFailed ==> PositiveRecvs(ev))
  }

  /** Every loop exit is well shaped, and a completed loop reached the declared length. */
  lemma LoopShape(fw: set<nat>, total: nat, rs: seq<RecvResult>, s: Session)
    ensures WellShaped(ReceiveLoop(fw, total, rs, s))
    ensures ReceiveLoop(fw, total, rs, s).Drained? ==> ReceiveLoop(fw, total, rs, s).received >= total
  {
    LoopDrainedShape(fw, total, rs, s);
    LoopAbortShape(fw, total, rs, s);
    LoopRecvErrorShape(fw, total, rs, s);
    LoopOtherAbortShape(fw, total, rs, s);
  }

  /**
    Every `esp_ota_write` the loop makes is numbered in call order from the
    session's counter, and its result is the platform's answer for that
    number.
   */
  lemma {:induction false} LoopWriteOrdinals(fw: set<nat>, total: nat, rs: seq<RecvResult>, s: Session)
    ensures WritesFollowOrdinals(ReceiveLoop(fw, total, rs, s).events, fw, s.writes)
    decreases |rs|
  {
    if s.received >= total {
    } else if rs == [] {
      var ev := [Recv(0), Abort];
      assert !ev[0].Write? && !ev[1].Write?;
    } else {
      ChunkStepWrites(fw, s, rs[0]);
      match ChunkStep(fw, s, rs[0])
      case Stop(_, _) =>
      case Continue(next, ev) =>
        LoopWriteOrdinals(fw, total, rs[1..], next);
        WritesFollowOrdinalsAppend(ev, ReceiveLoop(fw, total, rs[1..], next).events, fw, s.writes);
    }
  }

  /** Splitting the chunks of the first `m` receive results after the first one. */
  lemma ChunksCons(rs: seq<RecvResult>, m: nat)
    requires 1 <= m <= |rs|
    ensures Flatten(Chunks(rs[..m])) == ChunkData(rs[0]) + Flatten(Chunks(rs[1..][..m - 1]))
    ensures HeaderEnd(ChunkData(rs[0])).Some? ==>
      Payload(Chunks(rs[..m])) ==
        ChunkData(rs[0])[HeaderEnd(ChunkData(rs[0])).value + 4..] + Flatten(Chunks(rs[1..][..m - 1]))
  {
    ChunksPrefix(rs, m);
    var rest := Chunks(rs[1..][..m - 1]);
    assert ([ChunkData(rs[0])] + rest)[1..] == rest;
  }

  /**
    When the loop runs to completion it has consumed the first `m` receive
    results, `m` being the number of receive calls: each carried bytes, and
    `received` grew by all of them, header bytes included.
   */
  lemma {:induction false} LoopConsumes(fw: set<nat>, total: nat, rs: seq<RecvResult>, s: Session)
    ensures match ReceiveLoop(fw, total, rs, s)
      case Aborted(_, _) => true
      case Drained(n, ev) =>
        var m := Count(ev, KRecv);
        && m <= |rs|
        && (forall i :: 0 <= i < m ==> rs[i].Received? && |rs[i].data| > 0)
        && n == s.received + |Flatten(Chunks(rs[..m]))|
        && (s.firstChunk && m > 0 ==> HeaderEnd(rs[0].data).Some?)
    decreases |rs|
  {
    if s.received >= total {
      assert Chunks(rs[..0]) == [];
    } else if rs != [] {
      match ChunkStep(fw, s, rs[0])
      case Stop(_, _) =>
      case Continue(next, ev) =>
        ChunkStepContinues(fw, s, rs[0]);
        LoopConsumes(fw, total, rs[1..], next);
        match ReceiveLoop(fw, total, rs[1..], next)
        case Aborted(_, _) =>
        case Drained(n, ev2) =>
          CountAppend(ev, ev2, KRecv);
          ConsumedCons(rs, Count(ev2, KRecv), s.received, next.received);
    }
  }

  /** The step of `LoopConsumes`: one more non-empty result in front of the consumed ones. */
  lemma ConsumedCons(rs: seq<RecvResult>, m: nat, before: nat, after: nat)
    requires rs != [] && rs[0].Received? && |rs[0].data| > 0 && after == before + |rs[0].data|
    requires m <= |rs| - 1
    requires forall i :: 0 <= i < m ==> rs[1..][i].Received? && |rs[1..][i].data| > 0
    ensures forall i :: 0 <= i < m + 1 ==> rs[i].Received? && |rs[i].data| > 0
    ensures after + |Flatten(Chunks(rs[1..][..m]))| == before + |Flatten(Chunks(rs[..m + 1]))|
  {
    ChunksCons(rs, m + 1);
    forall i | 0 <= i < m + 1
      ensures rs[i].Received? && |rs[i].data| > 0
    {
      if i > 0 {
        assert rs[i] == rs[1..][i - 1];
      }
    }
  }

  /**
    When the loop runs to completion, the bytes handed to the partition are
    those after the header terminator of the first chunk followed by every
    later chunk verbatim.
   */
  lemma {:induction false} LoopPayload(fw: set<nat>, total: nat, rs: seq<RecvResult>, s: Session)
    ensures match ReceiveLoop(fw, total, rs, s)
      case Aborted(_, _) => true
      case Drained(n, ev) =>
        && Count(ev, KRecv) <= |rs|
        && var chunks := Chunks(rs[..Count(ev, KRecv)]);
        && Passed(ev) == (if s.firstChunk then Payload(chunks) else Flatten(chunks))
    decreases |rs|
  {
    if s.received >= total {
      assert Chunks(rs[..0]) == [];
    } else if rs != [] {
      match ChunkStep(fw, s, rs[0])
      case Stop(_, _) =>
      case Continue(next, ev) =>
        ChunkStepContinues(fw, s, rs[0]);
        ChunkStepPasses(fw, s, rs[0]);
        LoopPayload(fw, total, rs[1..], next);
        match ReceiveLoop(fw, total, rs[1..], next)
        case Aborted(_, _) =>
        case Drained(n, ev2) =>
          CountAppend(ev, ev2, KRecv);
          PassedAppend(ev, ev2);
          ChunksCons(rs, Count(ev2, KRecv) + 1);
    }
  }

  /** With no failing writes, the loop stores every byte it hands to the partition. */
  lemma {:induction false} LoopStoresAll(total: nat, rs: seq<RecvResult>, s: Session)
    ensures var x := ReceiveLoop({}, total, rs, s);
      x.Drained? ==> Stored(x.events) == Passed(x.events)
    decreases |rs|
  {
    if s.received < total && rs != [] {
      match ChunkStep({}, s, rs[0])
      case Stop(_, _) =>
      case Continue(next, ev) =>
        ChunkStepPasses({}, s, rs[0]);
        LoopStoresAll(total, rs[1..], next);
        PassedAppend(ev, ReceiveLoop({}, total, rs[1..], next).events);
    }
  }

  /**
    Under the receive call's contract the loop ends with `received` equal
    to the declared length, never above it.
   */
  lemma {:induction false} LoopDrainsExactly(fw: set<nat>, total: nat, rs: seq<RecvResult>, s: Session)
    requires s.received <= total
    requires WithinDeclaredLength(total - s.received, rs)
    ensures ReceiveLoop(fw, total, rs, s).Drained? ==> ReceiveLoop(fw, total, rs, s).received == total
    decreases |rs|
  {
    if s.received < total && rs != [] {
      match ChunkStep(fw, s, rs[0])
      case Stop(_, _) =>
      case Continue(next, ev) =>
        ChunkStepContinues(fw, s, rs[0]);
        LoopDrainsExactly(fw, total, rs[1..], next);
    }
  }

  /** Two runs whose first-chunk write, if there is one, fares the same differ only in write results. */
  lemma ChunkStepIgnoresLaterWrites(fw1: set<nat>, fw2: set<nat>, s: Session, r: RecvResult)
    requires s.firstChunk && FirstChunkWrites(r) ==> (s.writes in fw1 <==> s.writes in fw2)
    ensures ChunkStep(fw1, s, r).Continue? == ChunkStep(fw2, s, r).Continue?
    ensures ChunkStep(fw1, s, r).Continue? ==> ChunkStep(fw1, s, r).next == ChunkStep(fw2, s, r).next
    ensures ChunkStep(fw1, s, r).Stop? ==> ChunkStep(fw1, s, r).why == ChunkStep(fw2, s, r).why
    ensures Erase(ChunkStep(fw1, s, r).events) == Erase(ChunkStep(fw2, s, r).events)
  {
  }

  /**
    Only the result of the write of the first chunk's data is looked at:
    the outcome of every later write changes nothing but its own flag. When
    the first chunk ends at its header terminator it writes nothing, and no
    write result matters at all.
   */
  lemma {:induction false} LoopIgnoresLaterWrites(fw1: set<nat>, fw2: set<nat>, total: nat, rs: seq<RecvResult>, s: Session)
    requires s.firstChunk && rs != [] && FirstChunkWrites(rs[0]) ==> (s.writes in fw1 <==> s.writes in fw2)
    ensures var x1 := ReceiveLoop(fw1, total, rs, s); var x2 := ReceiveLoop(fw2, total, rs, s);
      && x1.Drained? == x2.Drained?
      && (x1.Drained? ==> x1.received == x2.received)
      && (x1.Aborted? ==> x1.why == x2.why)
      && Erase(x1.events) == Erase(x2.events)
    decreases |rs|
  {
    if s.received < total && rs != [] {
      ChunkStepIgnoresLaterWrites(fw1, fw2, s, rs[0]);
      match ChunkStep(fw1, s, rs[0])
      case Stop(_, _) =>
      case Continue(next, ev1) =>
        ChunkStepContinues(fw1, s, rs[0]);
        var ev2 := ChunkStep(fw2, s, rs[0]).events;
        LoopIgnoresLaterWrites(fw1, fw2, total, rs[1..], next);
        EraseConcat(ev1, ReceiveLoop(fw1, total, rs[1..], next).events);
        EraseConcat(ev2, ReceiveLoop(fw2, total, rs[1..], next).events);
    }
  }

  /**
    Later chunks that carry bytes and add up to what is left of the
    declared length are all received and written, in order.
   */
  lemma {:induction false} LoopDeliversLaterChunks(fw: set<nat>, total: nat, cs: seq<seq<byte>>, s: Session)
    requires !s.firstChunk
    requires forall i :: 0 <= i < |cs| ==> |cs[i]| > 0
    requires s.received + |Flatten(cs)| == total
    ensures ReceiveLoop(fw, total, AsReceived(cs), s).Drained?
    ensures ReceiveLoop(fw, total, AsReceived(cs), s).received == total
    ensures Passed(ReceiveLoop(fw, total, AsReceived(cs), s).events) == Flatten(cs)
    ensures fw == {} ==> Stored(ReceiveLoop(fw, total, AsReceived(cs), s).events) == Flatten(cs)
    decreases |cs|
  {
    var rs := AsReceived(cs);
    if cs != [] {
      assert rs[0] == Received(cs[0]);
      assert rs[1..] == AsReceived(cs[1..]);
      ChunkStepContinues(fw, s, rs[0]);
      ChunkStepPasses(fw, s, rs[0]);
      var next := ChunkStep(fw, s, rs[0]).next;
      var ev := ChunkStep(fw, s, rs[0]).events;
      LoopDeliversLaterChunks(fw, total, cs[1..], next);
      PassedAppend(ev, ReceiveLoop(fw, total, rs[1..], next).events);
      RecvThenWrite(|cs[0]|, cs[0], s.writes !in fw);
    }
  }
}

=== FILE: uri_unescape.dfy ===
/**
  Model of `httpd_unescape_uri` (main/web_server.c): decoding of a
  percent-encoded, form-encoded string into a bounded destination buffer.

  - `%HH` with two hexadecimal digits (either case) becomes the octet HH
    (percent-encoding, section 2.1 of RFC 3986);
  - `+` becomes a space (the application/x-www-form-urlencoded convention,
    section 5.1 of the WHATWG URL Standard);
  - every other character, including a `%` that is not followed by two
    hexadecimal digits, is copied unchanged;
  - the source is a C string: decoding stops at the first NUL character;
  - at most `dest_size - 1` characters are produced, then a NUL is stored.

  Characters stand for the octets of the C `char` buffers; a decoded `%HH`
  is the character whose code is HH (0 to 255).
 */
module UriUnescape {

  /** C's string terminator. */
  const Nul: char := '\0'

  /** `isxdigit` in the C locale. */
  predicate IsHexDigit(c: char) {
    ('0' <= c <= '9') || ('a' <= c <= 'f') || ('A' <= c <= 'F')
  }

  /** Value of one hexadecimal digit, as `strtol(.., 16)` reads it. */
  function HexValue(c: char): (v: nat)
    requires IsHexDigit(c)
    ensures v < 16
  {
    if '0' <= c <= '9' then c as int - '0' as int
    else if 'a' <= c <= 'f' then c as int - 'a' as int + 10
    else c as int - 'A' as int + 10
  }

  /** The octet that `%` followed by the digits `hi` and `lo` stands for. */
  function OctetChar(hi: char, lo: char): (c: char)
    requires IsHexDigit(hi) && IsHexDigit(lo)
    ensures c as int < 256
  {
    (16 * HexValue(hi) + HexValue(lo)) as char
  }

  /** True when `s` starts with `%` and two hexadecimal digits. */
  predicate StartsWithEscape(s: seq<char>) {
    |s| >= 3 && s[0] == '%' && IsHexDigit(s[1]) && IsHexDigit(s[2])
  }

  /**
    The untruncated decoding of the C string held in `src`: the reference
    against which the bounded decoder is specified.
   */
  function Decode(src: seq<char>): seq<char>
    decreases |src|
  {
    if |src| == 0 || src[0] == Nul then []
    else if StartsWithEscape(src) then [OctetChar(src[1], src[2])] + Decode(src[3..])
    else if src[0] == '+' then [' '] + Decode(src[1..])
    else [src[0]] + Decode(src[1..])
  }

  function Min(a: int, b: int): int {
    if a <= b then a else b
  }

  /**
    The C loop itself. `dest` is the part of the destination buffer that the
    function writes (indices 0 to `n`, the last one being the terminator)
    and `n` is the value it returns.
   */
  method UnescapeUri(src: seq<char>, destSize: nat) returns (dest: seq<char>, n: int)
    requires destSize >= 1
    ensures 0 <= n <= destSize - 1
    ensures |dest| == n + 1 && |dest| <= destSize
    ensures dest[n] == Nul
    ensures n == Min(|Decode(src)|, destSize - 1)
    ensures dest[..n] == Decode(src)[..n]
  {
    var si: nat := 0;
    var out: seq<char> := [];
    while si < |src| && src[si] != Nul && |out| < destSize - 1
      invariant si <= |src|
      invariant |out| <= destSize - 1
      invariant out + Decode(src[si..]) == Decode(src)
      decreases |src| - si
    {
      var c: char;
      var width: nat;
      if src[si] == '%' && si + 1 < |src| && IsHexDigit(src[si + 1])
        && si + 2 < |src| && IsHexDigit(src[si + 2])
      {
        c, width := OctetChar(src[si + 1], src[si + 2]), 3;
        DecodeSuffixEscape(src, si);
      } else if src[si] == '+' {
        c, width := ' ', 1;
        DecodeSuffixOther(src, si);
      } else {
        c, width := src[si], 1;
        DecodeSuffixOther(src, si);
      }
      AppendShift(out, c, Decode(src[si + width..]));
      out := out + [c];
      si := si + width;
    }
    if si == |src| || src[si] == Nul {
      assert Decode(src[si..]) == [];
      assert out == Decode(src);
    }
    PrefixOfAppend(out, Decode(src[si..]));
    dest := out + [Nul];
    n := |out|;
    assert dest[..n] == out;
  }

  lemma PrefixOfAppend(a: seq<char>, b: seq<char>)
    ensures (a + b)[..|a|] == a && |a + b| == |a| + |b|
  {
  }

  /** Moving one decoded character from the pending rest to the output keeps the whole unchanged. */
  lemma AppendShift(out: seq<char>, c: char, rest: seq<char>)
    ensures out + ([c] + rest) == (out + [c]) + rest
  {
  }

  /** One loop step on an escape: three source characters become one octet. */
  lemma DecodeSuffixEscape(src: seq<char>, si: nat)
    requires si + 2 < |src| && src[si] == '%' && IsHexDigit(src[si + 1]) && IsHexDigit(src[si + 2])
    ensures Decode(src[si..]) == [OctetChar(src[si + 1], src[si + 2])] + Decode(src[si + 3..])
  {
    var rest := src[si..];
    assert StartsWithEscape(rest) && rest[3..] == src[si + 3..];
  }

  /** One loop step on any other character: it is copied, `+` as a space. */
  lemma DecodeSuffixOther(src: seq<char>, si: nat)
    requires si < |src| && src[si] != Nul
    requires !(src[si] == '%' && si + 1 < |src| && IsHexDigit(src[si + 1])
               && si + 2 < |src| && IsHexDigit(src[si + 2]))
    ensures Decode(src[si..]) == (if src[si] == '+' then [' '] else [src[si]]) + Decode(src[si + 1..])
  {
    var rest := src[si..];
    assert !StartsWithEscape(rest) && rest[1..] == src[si + 1..];
  }

  /* ---------------------------------------------------------------------- */
  /* An encoder that the decoder inverts                                     */
  /* ---------------------------------------------------------------------- */

  /** Hexadecimal digit for a value below 16, in upper or lower case. */
  function HexDigit(v: nat, upper: bool): (c: char)
    requires v < 16
    ensures IsHexDigit(c) && HexValue(c) == v
  {
    if v < 10 then ('0' as int + v) as char
    else if upper then ('A' as int + v - 10) as char
    else ('a' as int + v - 10) as char
  }

  /** `%HH` for an octet. */
  function EscapeOctet(c: char, upper: bool): (e: seq<char>)
    requires c as int < 256
    ensures StartsWithEscape(e) && |e| == 3 && OctetChar(e[1], e[2]) == c
  {
    ['%', HexDigit(c as int / 16, upper), HexDigit(c as int % 16, upper)]
  }

  /** Percent-encodes every octet of `s`. */
  function PercentEncode(s: seq<char>, upper: bool): (e: seq<char>)
    requires forall i :: 0 <= i < |s| ==> s[i] as int < 256
    ensures |e| == 3 * |s|
  {
    if s == [] then [] else EscapeOctet(s[0], upper) + PercentEncode(s[1..], upper)
  }

  /**
    A form encoder: space becomes `+`; `%`, `+` and NUL are escaped; every
    other character is kept.
   */
  function FormEncode(s: seq<char>): seq<char>
  {
    if s == [] then []
    else if s[0] == ' ' then ['+'] + FormEncode(s[1..])
    else if s[0] == '%' || s[0] == '+' || s[0] == Nul then EscapeOctet(s[0], true) + FormEncode(s[1..])
    else [s[0]] + FormEncode(s[1..])
  }

  /** Decoding an escape followed by anything decodes the escape, then the rest. */
  lemma DecodeAfterEscape(e: seq<char>, rest: seq<char>)
    requires StartsWithEscape(e) && |e| == 3
    ensures Decode(e + rest) == [OctetChar(e[1], e[2])] + Decode(rest)
  {
    assert (e + rest)[3..] == rest;
  }

  /** Decoding a character that starts no escape, is not `+` and is not NUL copies it. */
  lemma DecodeAfterPlain(c: char, rest: seq<char>)
    requires c != '%' && c != Nul
    ensures Decode([c] + rest) == (if c == '+' then [' '] else [c]) + Decode(rest)
  {
    assert ([c] + rest)[1..] == rest;
  }

  /** Percent-encoding in either case round-trips through the decoder. */
  lemma {:induction false} DecodePercentEncode(s: seq<char>, upper: bool)
    requires forall i :: 0 <= i < |s| ==> s[i] as int < 256
    ensures Decode(PercentEncode(s, upper)) == s
    decreases |s|
  {
    if s != [] {
      DecodeAfterEscape(EscapeOctet(s[0], upper), PercentEncode(s[1..], upper));
      DecodePercentEncode(s[1..], upper);
      assert s == [s[0]] + s[1..];
    }
  }

  /** Every string survives form encoding followed by decoding. */
  lemma {:induction false} DecodeFormEncode(s: seq<char>)
    ensures Decode(FormEncode(s)) == s
    decreases |s|
  {
    if s != [] {
      var rest := FormEncode(s[1..]);
      DecodeFormEncode(s[1..]);
      if s[0] == ' ' {
        assert FormEncode(s) == ['+'] + rest;
        DecodeAfterPlain('+', rest);
      } else if s[0] == '%' || s[0] == '+' || s[0] == Nul {
        assert FormEncode(s) == EscapeOctet(s[0], true) + rest;
        DecodeAfterEscape(EscapeOctet(s[0], true), rest);
      } else {
        assert FormEncode(s) == [s[0]] + rest;
        DecodeAfterPlain(s[0], rest);
      }
      assert s == [s[0]] + s[1..];
    }
  }

  /** Text with no `%`, `+` or NUL decodes to itself. */
  lemma {:induction false} DecodePlainText(s: seq<char>)
    requires forall i :: 0 <= i < |s| ==> s[i] != '%' && s[i] != '+' && s[i] != Nul
    ensures Decode(s) == s
    decreases |s|
  {
    if s != [] {
      DecodePlainText(s[1..]);
      DecodeAfterPlain(s[0], s[1..]);
      assert s == [s[0]] + s[1..];
    }
  }

  /**
    Each decoded character consumes one to three source characters: the
    decoding is never longer than the source, and at least a third of it.
   */
  lemma {:induction false} DecodeLength(s: seq<char>)
    requires forall i :: 0 <= i < |s| ==> s[i] != Nul
    ensures |Decode(s)| <= |s| <= 3 * |Decode(s)|
    decreases |s|
  {
    if s != [] {
      if StartsWithEscape(s) {
        DecodeLength(s[3..]);
      } else {
        DecodeLength(s[1..]);
      }
    }
  }
}

=== FILE: wrappers.dfy ===
/** The optional value shared by the other modules. */
module Wrappers {

  /** A value that may be absent, such as a C pointer that may be NULL. */
  datatype Option<+T> = None | Some(value: T)
}
